=== FILE: README.md ===
# Session broker of the remote-control system, modelled in Dafny

The system lets a *controller* view and operate a *guest* device. A backend
broker pairs the two through a short-lived session identified by a six-digit
code, and relays signaling and control messages between them. This project
models that broker and the two small client-side state holders around it, as
pure functions over immutable values:

- `SessionCodes` (`codes.dfy`): the six-digit pairing codes.
- `Registry` (`registry.dfy`): the in-memory `SessionManager`. It has two
  maps, `sessions` (id → session) and `byCode` (code → id). It supports
  create with re-draw on collision, join, lookups, permission merge,
  idempotent end, the expiry sweep and the connected-session count. The
  invariant `Valid` says that the two maps agree, ids are non-empty, codes
  are well formed and no stored session is `disconnected`.
- `Router` (`router.dfy`): the Socket.IO handlers. Each handler is a step
  `(connection, registry, message, environment) → (connection', registry',
  outbox)`. A connection is its context `{userId, role, sessionId?}` plus its
  rooms. An outbox entry is a reply to the sender or a delivery to a room
  that excludes the sender.
- `AndroidIngress` (`ingress.dfy`): the secondary WebSocket ingress for
  Android guests. It has its own client table and shares the registry.
- `SessionRoutes` (`lookup.dfy`): `GET /:code` and the `activeSessions`
  stat.
- `Broker` (`broker.dfy`): all of the above as one state machine over a
  trace of events. The expiry timer and the periodic sweep are events.
- `GuestSession` (`guest_session.dfy`): the Android guest's persisted token,
  code and active flag.
- `MobileSocket` (`listeners.dfy`): the mobile client's listener map and its
  connected guard.
- `Base` (`base.dfy`): `Option`, `Result` and decimal numerals.

Inputs that the source reads from the outside world are parameters:
- `now`: the clock, in milliseconds.
- `Draw` values: the integer part of `Math.random() * 900000`.
- `freshId`: the next `uuidv4()`.
- `suffix`: the random part of a `guest_…` id.
- `verify`: the token verifier.

The model keeps these behaviours of the code as written:
- `joinSession` checks `connected` before it checks expiry.
- `update-permissions` relays the patch the guest sent, not the merged
  permissions.
- `control-event` and `adjust-quality` go to the whole session room except
  the sender.
- `webrtc-signal` goes to whatever room `signal.to` names.
- Ending a session does not cancel its timer. A later expiry event for that
  id is a no-op.
- The lookup route checks only the length of the code.
- A controller's disconnect leaves its session `connected`.

## Model

| member | source | states |
|---|---|---|
| SessionCodes.CodeOf | backend/src/services/sessionManager.ts:9-11 | every generated code is exactly six decimal digits, has no leading zero, and denotes 100000 + the draw |
| SessionCodes.CodeOfInjective | backend/src/services/androidWebSocketService.ts:173-175 | different draws give different codes |
| SessionCodes.SessionCodeIsDrawn | backend/src/services/sessionManager.ts:10 | every six-digit code without a leading zero is produced by some draw, so the generator covers the whole 900,000-code space |
| Registry.FirstFreeDraw | backend/src/services/sessionManager.ts:14-17 | the re-draw loop stops at the first draw whose code is not in the code index; every earlier draw collided; there is no result exactly when every draw collides |
| Registry.CreateSession | backend/src/services/sessionManager.ts:13-43 | the new code was absent from the index and is the first free draw. The session is `waiting`, has the given guest and no controller, permissions {screenShare: true, others false}, and expiresAt = createdAt + 30 min. Both maps gain exactly the new entry, validity is kept, and the code lookup finds the new session |
| Registry.GetSession | backend/src/services/sessionManager.ts:71-73 | a session is found exactly when its id is stored, and it is the stored one. In a valid registry it carries that id, and the code index leads back to it |
| Registry.GetSessionByCode | backend/src/services/sessionManager.ts:75-78 | a missing code, or one indexed under an empty (falsy) id, finds nothing. In a valid registry a code finds a session exactly when some stored session carries it, and the session found carries that code |
| Registry.LookupsAgree | backend/src/services/sessionManager.ts:71-78 | in a valid registry, a code lookup yields a session if and only if the id lookup yields it and its code is that code |
| Registry.JoinSession | backend/src/services/sessionManager.ts:45-69 | unknown code (or falsy id) → "Session not found", nothing changes. `connected` → "Session already has a controller", nothing changes, checked before expiry. expiresAt < now → "Session expired" and the session is ended in both maps. Otherwise only controllerId and status change. Validity is kept, and a successful join never returns an expired session |
| Registry.SecondJoinFails | backend/src/services/sessionManager.ts:56-58 | after a successful join, any later join on that code by anyone fails with "Session already has a controller", changes nothing, and the first controller stays recorded |
| Registry.EndSession | backend/src/services/sessionManager.ts:87-95 | the id leaves the table, other sessions are untouched, and an unknown id is a no-op. In a valid registry its code leaves the index and is no longer found, and validity is kept |
| Registry.EndSessionIdempotent | backend/src/services/sessionManager.ts:87-95 | ending a session twice equals ending it once |
| Registry.MergeOverwritesOnlySupplied | backend/src/services/sessionManager.ts:83 | the spread merge overwrites exactly the supplied permission fields, and applying the same patch twice equals applying it once |
| Registry.UpdatePermissions | backend/src/services/sessionManager.ts:80-85 | an unknown id is a no-op. Otherwise only that session's permissions change, by the merge. The code index is untouched and validity is kept |
| Registry.ActiveSessionsCount | backend/src/services/sessionManager.ts:98-101 | the count equals the number of stored sessions whose status is `connected` |
| Registry.Sweep | backend/src/services/sessionManager.ts:104-111 | afterwards no stored session has expiresAt < now. Every unexpired session is kept unchanged, and validity is kept |
| Registry.CleanupExpiredSessions | backend/src/services/sessionManager.ts:104-111 | calling endSession on each expired session in turn, in any order, gives exactly the swept registry |
| Router.Handshake | backend/src/services/socketService.ts:8-27 | a missing or empty token is refused with "Authentication token required"; a token the verifier rejects gets "Authentication failed". Otherwise the context is the verified {userId, role}, unbound, in its personal room |
| Router.Handle | backend/src/services/socketService.ts:23-147 | a message failing its role or bound-session check gets only its refusal and changes nothing. Identity never changes. Only create, join, update-permissions and disconnect touch the registry, and validity is kept. Errors go only to the sender, alone. Relayed signals carry the sender's verified id as `from`. Control events come only from a bound controller and go to its session room. `ping` is answered with exactly one `pong` to the sender, and nothing else changes |
| Router.Refusal | backend/src/services/socketService.ts:32-117 | a refusal exists only for messages with a role or session guard, so `disconnect` and `ping` have none, and every refusal is an error event |
| Router.OnCreateSession | backend/src/services/socketService.ts:30-45 | a non-guest gets "Only guests can create sessions" and nothing changes; the handler owes the router-wide duties listed for Router.Handle |
| Router.OnJoinSession | backend/src/services/socketService.ts:48-69 | a non-controller gets "Only controllers can join sessions" and nothing changes; the handler owes the router-wide duties |
| Router.OnSignal | backend/src/services/socketService.ts:72-85 | an unbound connection gets "Not in a session". A bound sender's signal goes, with `from` replaced by the sender's id, to exactly the room it names, and nothing else changes |
| Router.OnControl | backend/src/services/socketService.ts:88-101 | an unbound or non-controller sender gets only "Unauthorized control event", and nothing is delivered. A bound controller's event goes, stamped with its id, to its session room and nowhere else, and nothing else changes |
| Router.OnAdjustQuality | backend/src/services/socketService.ts:104-111 | an unbound connection gets "Not in a session". Otherwise exactly one `quality-change` with the requested quality goes to the session room, and the connection and registry are unchanged |
| Router.OnUpdatePermissions | backend/src/services/socketService.ts:114-122 | an unbound or non-guest sender gets "Only guests can update permissions" and nothing changes. For a bound guest, the registry is updated by the merge of the patch into its session's permissions, and exactly one `permissions-updated` carrying the patch goes to the session room. Validity is kept |
| Router.OnDisconnect | backend/src/services/socketService.ts:125-141 | disconnect never sends an error, and keeps validity. An unbound connection leaves every room and changes nothing else: no notice is sent and the registry is untouched |
| Router.CreateBindsNewSession | backend/src/services/socketService.ts:30-45 | a guest's create binds ctx.sessionId to the new waiting session it owns and joins that room. The registry becomes exactly the registry's create result, so every other session is kept. The reply is the session's code, which finds the session |
| Router.JoinOutcome | backend/src/services/socketService.ts:48-69 | a failed join sends the registry's error text to the sender only. A successful one binds the session and joins its room. It sends `controller-joined {controllerId, sessionId}` to the guest's room, then acknowledges with the session |
| Router.DisconnectOutcome | backend/src/services/socketService.ts:125-141 | for any registry, peers first hear `peer-disconnected {userId, role}`. A guest's departure makes the registry exactly `endSession` of its session, which is then gone, and sends `session-ended`. A controller's departure changes nothing else |
| Router.ControllerDisconnectStrandsSession | backend/src/services/socketService.ts:136-139 | after a controller disconnects, its session stays `connected` with that controller recorded, so every later join fails with "Session already has a controller" |
| Router.SignalReachesAnyRoom | backend/src/services/socketService.ts:79 | a bound sender's signal is delivered to whatever room it names, including one the sender is not in |
| Router.SecondCreateOrphansFirst | backend/src/services/socketService.ts:36-38 | a second create on a bound guest connection rebinds it to the new session, while the first session stays registered unchanged |
| AndroidIngress.Connect | backend/src/services/androidWebSocketService.ts:21-53 | the client is registered as authenticated, with userId = its client id and sessionId `android_<now>`. The registry session's code is replaced by the independently drawn code, and the code index is left as the registry built it. The reply announces that code, that session id and status `connected` |
| AndroidIngress.ConnectBreaksIndex | backend/src/services/androidWebSocketService.ts:40-43 | when the two draws differ, the maps no longer agree. The announced code then finds no session or another session, and a join with it never joins the new session |
| AndroidIngress.AnnouncedCodeUnknown | backend/src/services/androidWebSocketService.ts:40-53 | concretely: on an empty registry, draws 0 and 1 announce "100001", which every lookup misses and whose join fails with "Session not found" |
| AndroidIngress.ConnectAnnouncingRegistryCode | backend/src/services/androidWebSocketService.ts:40-53 | when the registry's create succeeds, the corrected connect leaves exactly that registry and announces the registry's own code, with the `android_<now>` session id and status `connected`. That code finds the new session of this client. When every draw collides, nothing changes and nothing is sent. Validity is kept |
| AndroidIngress.Authenticate | backend/src/services/androidWebSocketService.ts:97-120 | the client gets a fresh `guest_` user id and authenticated = true, other clients and the registry are untouched, and it receives `auth-success` |
| AndroidIngress.OnCreateSession | backend/src/services/androidWebSocketService.ts:122-150 | an unauthenticated client gets "Not authenticated" and nothing changes. When some draw is free, the registry becomes exactly the registry's create result for the client's current user id and the fresh id, so the new waiting session has the 30-minute expiry, default permissions and first free code. The client is rebound to it, its code finds it, and `session_created` announces that code and id. Earlier sessions stay unchanged, and validity is kept. When every draw collides, the reply is "Failed to create session" and nothing changes |
| AndroidIngress.OnMessage | backend/src/services/androidWebSocketService.ts:55-95 | an unparseable frame gets "Invalid message format". So does a JSON `null` frame from a registered client, whose `type` read throws; from an unknown client it gets nothing. Frames of unknown clients and unknown types change nothing and get no reply. Validity and all-authenticated are kept, so "Not authenticated" is never sent |
| AndroidIngress.Close | backend/src/services/androidWebSocketService.ts:65-73 | close and error remove only that client from the table; the registry, and so its session, is untouched |
| SessionRoutes.LookupByCode | backend/src/routes/sessionRoutes.ts:17-63 | a `length` other than 6 gives 400 "Invalid session code format". Only the length is checked, counted in UTF-16 code units, and a well-formed code is never refused. A missing code gives 404 "Session not found", an expired session 410 "Session expired". Otherwise 200, with the found session's id, code, status, permissions, createdAt and expiresAt. In a valid registry that code is the one asked for |
| SessionRoutes.WideCharactersPassFormatCheck | backend/src/routes/sessionRoutes.ts:21 | three characters outside the Basic Multilingual Plane measure 6, pass the format check and get 404 on an empty registry |
| SessionRoutes.LookupHidesParticipants | backend/src/routes/sessionRoutes.ts:45-56 | the response is the same whoever the guest and controller are, so it never exposes guestId or controllerId |
| SessionRoutes.ExpiredIsReportedNotEnded | backend/src/routes/sessionRoutes.ts:38-43 | an expired session gets 410 but stays registered; only a sweep removes it |
| SessionRoutes.ServerStatsActiveSessions | backend/src/routes/sessionRoutes.ts:66-76 | `activeSessions` equals the number of connected sessions |
| GuestSession.Save | android-plugin/app/src/main/java/com/remotecontrol/guest/utils/SessionManager.java:43-49 | saving touches only the three keys of the store |
| GuestSession.Load | android-plugin/app/src/main/java/com/remotecontrol/guest/utils/SessionManager.java:37-41 | an empty store loads as null token, null code and inactive. Token and code are present exactly when their keys are stored |
| GuestSession.LoadSave | android-plugin/app/src/main/java/com/remotecontrol/guest/utils/SessionManager.java:37-49 | loading what was saved restores the three fields, whatever the store held |
| GuestSession.Open | android-plugin/app/src/main/java/com/remotecontrol/guest/utils/SessionManager.java:18-41 | the loaded state agrees with the store; an empty store gives a null token, a null code and an inactive flag |
| GuestSession.SetAuthToken | android-plugin/app/src/main/java/com/remotecontrol/guest/utils/SessionManager.java:51-54 | only the token changes, and the store agrees with the new state |
| GuestSession.SetCurrentSession | android-plugin/app/src/main/java/com/remotecontrol/guest/utils/SessionManager.java:60-64 | code := c and flag := true with the token kept, and the store agrees |
| GuestSession.EndSession | android-plugin/app/src/main/java/com/remotecontrol/guest/utils/SessionManager.java:74-78 | the code and flag are cleared with the token kept, the session is inactive, and the store agrees |
| GuestSession.ClearAll | android-plugin/app/src/main/java/com/remotecontrol/guest/utils/SessionManager.java:80-88 | all three fields are reset and the store is emptied, which loads back as the reset state |
| GuestSession.IsSessionActive | android-plugin/app/src/main/java/com/remotecontrol/guest/utils/SessionManager.java:70-72 | for a manager that agrees with its store, the session is active exactly when the stored flag is set and a code is stored |
| GuestSession.SessionLifecycle | android-plugin/app/src/main/java/com/remotecontrol/guest/utils/SessionManager.java:60-78 | after setCurrentSession(c) the session is active if and only if c is non-null. Ending keeps the token. A re-open from the store sees the same state |
| MobileSocket.Connect | mobile-app/src/services/socketService.ts:10-20 | connecting when already connected is a no-op; otherwise a new, not yet connected socket replaces the old one and listeners are kept |
| MobileSocket.Established | mobile-app/src/services/socketService.ts:22-25 | once the transport connects, the client is connected and the listeners are unchanged |
| MobileSocket.Emit | mobile-app/src/services/socketService.ts:51-58 | a message is sent if and only if the socket is connected, and it is exactly the given event and data |
| MobileSocket.Disconnect | mobile-app/src/services/socketService.ts:43-49 | afterwards the client is not connected and no event has listeners |
| MobileSocket.On | mobile-app/src/services/socketService.ts:60-68 | cb is appended to the end of e's list, creating the list if absent; other events' lists are unchanged |
| MobileSocket.IndexOf | mobile-app/src/services/socketService.ts:77 | the result is -1 exactly when cb is absent; otherwise it is the first position of cb |
| MobileSocket.RemoveFirst | mobile-app/src/services/socketService.ts:76-80 | only the first occurrence is removed: the result is the list minus one copy of cb, and the list is unchanged when cb is absent |
| MobileSocket.Off | mobile-app/src/services/socketService.ts:70-85 | an event with no list is a no-op. Without a callback the list is emptied and the key kept. With one, the first occurrence is removed. Other events are unchanged |
| MobileSocket.OffUndoesOn | mobile-app/src/services/socketService.ts:60-85 | removing a callback that was just added, and was not registered before, restores the list |
| MobileSocket.TriggerListeners | mobile-app/src/services/socketService.ts:87-92 | an event with no entry runs nothing. Otherwise exactly the callbacks in its list run, once each, in list order |
| MobileSocket.TriggerInRegistrationOrder | mobile-app/src/services/socketService.ts:87-92 | the callbacks run in registration order, after those registered earlier |
| MobileSocket.OnServerEvent | mobile-app/src/services/socketService.ts:38-40 | as written, a server event runs no callback and, when connected, is sent back to the server |
| MobileSocket.DispatchServerEvent | mobile-app/src/services/socketService.ts:87-92 | the corrected dispatch sends nothing and runs exactly e's listeners in order |
| MobileSocket.ListenerNeverRuns | mobile-app/src/services/socketService.ts:38-40 | a listener registered for e does not run when the server sends e, and e is echoed back; with the corrected dispatch it runs |
| Broker.StepKeepsInvariants | backend/src/services/sessionManager.ts:5-6 | every router, registry-timer and Android message event keeps the two maps in agreement. Every event keeps Android clients authenticated |
| Broker.TraceKeepsInvariants | backend/src/services/sessionManager.ts:5-6 | the maps agree after every trace that avoids the as-written Android connect, and after every trace when the corrected connect is used. Android clients stay authenticated throughout |
| Broker.AndroidConnectBreaksRegistry | backend/src/services/androidWebSocketService.ts:40-43 | a single Android connection on a fresh broker makes the registry invalid as written, and leaves it valid with the correction |

## Findings

| source | as written | input that shows it | evidently intended | confidence | as-written member | corrected member |
|---|---|---|---|---|---|---|
| backend/src/services/androidWebSocketService.ts:40-43 | the connect handler overwrites `session.code` with a second, independent draw and leaves `sessionsByCodes` under the first code | empty registry; registry draw 0 ("100000"), second draw 1 ("100001") | the code announced to the device finds the session just created | high, not executed | AndroidIngress.ConnectBreaksIndex | AndroidIngress.ConnectAnnouncingRegistryCode |
| mobile-app/src/services/socketService.ts:38-40 | `onAny` passes each server event to `emit`, which sends it back to the server; `triggerListeners` is never called | a connected client with `on('control-event', cb)` receives `control-event` | server events run the callbacks registered with `on`, in registration order | high, not executed | MobileSocket.ListenerNeverRuns | MobileSocket.DispatchServerEvent |

With the first finding, the announced code usually matches no session. A
controller who types it gets "Session not found". If the code happens to
belong to another session, the controller joins that guest's session
instead. Ending the Android session later also deletes the index entry under
the announced code, which may belong to another session. In the `Broker`
model, the `Ingress` parameter selects either connect path: `AsWritten` keeps
the source's behaviour and `Corrected` uses the fix.

## Left out

- Transport: Socket.IO, `ws`, Express and HTTP middleware are not modelled.
  Deliveries are outbox entries. `sendMessage`'s `readyState` check is left
  out, so replies are assumed delivered.
- JWT signing and verification: `verifyToken` is the parameter `verify` of
  `Router.Handshake`. In `Broker`, a `SocketOpen` event carries an identity
  that already passed verification.
- Timers and randomness: `setTimeout`, `setInterval`, `Math.random`,
  `uuidv4` and `Date` are events or parameters. Where the source reads the
  clock twice while creating a session, the model uses one instant.
- Registry.CreateSession: requires a non-empty id not already stored, which
  is the promise `uuidv4` is trusted for. On a finite stream of draws that
  all collide it returns `None`. The source would keep drawing in a
  synchronous loop and block the whole process.
- AndroidIngress.OnCreateSession: when every draw collides, the reply is
  "Failed to create session". In the source only an exception reaches that
  text, and the collision case itself would block the process in the
  synchronous re-draw loop.
- Router.OnCreateSession: a `None` from the registry is answered with the
  handler's catch text "Failed to create session". In the source only an
  exception reaches that text.
- AndroidIngress.Connect: the client id is a parameter. The source generates
  it as `android_` followed by a random suffix (lines 24 and 166 of the
  Android service), and the model neither builds nor relies on that shape.
  When every draw collides, the model registers the
  client and sends nothing. In the source the re-draw loop is synchronous, so
  that case would block the whole Node process. The model does not represent
  a stalled server.
- Interleaving: as a modelling assumption, each handler runs as one atomic
  step, including the code after an `await` (the `createSession` and
  `joinSession` calls in the Socket.IO handlers, and `endSession` on
  disconnect). In the source that code runs later as a queued continuation.
  Whether another event can be handled first depends on how Socket.IO
  dispatches packets, which this model does not cover.
- Malformed payloads on the Socket.IO side are not modelled. These include a
  missing `data` object, a missing callback, non-boolean or extra permission
  fields, and unknown quality values. They are the source's unchecked
  TypeScript types.
- The `status = 'disconnected'` write in `endSession` is not modelled. It
  lands on an object that is removed at once.
- Registry.Session: `guestId` is a plain string. The source's type marks it
  optional, but every creation sets it.
- MobileSocket: the handlers for the reserved `connect`, `disconnect` and
  `error` events (lines 22-35), which call `emit` with those names, are not
  modelled. `isConnected` is `MobileSocket.IsConnected`. Callbacks are
  identified by number.
- GuestSession: the singleton accessors, and exceptions from entries stored
  with the wrong type, are not modelled. `apply()`'s asynchronous write is
  treated as immediate.
- Rate limiting, the error handler, configuration other than the 30-minute
  lifetime, the Android UI and services, and the web and mobile screens are
  not part of this model.

=== FILE: base.dfy ===
/** Shared vocabulary: optional values, error-carrying results and the
    decimal rendering of natural numbers that JavaScript's `toString()`
    performs on the session codes and timestamps of the broker. */
module Base {

  /** A value that may be missing (`undefined` / `null` in the source). */
  datatype Option<+T> = None | Some(value: T) {
    function GetOr(default: T): T {
      match this
      case Some(v) => v
      case None => default
    }
  }

  /** An outcome that either carries a value or the text of a thrown error. */
  datatype Result<+T> = Ok(value: T) | Err(error: string)

  /** JavaScript truthiness of an optional string: `undefined` and `""` are falsy. */
  predicate Truthy(s: Option<string>) {
    s.Some? && s.value != ""
  }

  function Pow10(k: nat): (r: nat)
    ensures r >= 1
  {
    if k == 0 then 1 else 10 * Pow10(k - 1)
  }

  predicate IsDigit(c: char) {
    '0' <= c <= '9'
  }

  predicate AllDigits(s: string) {
    forall i | 0 <= i < |s| :: IsDigit(s[i])
  }

  function DigitChar(d: nat): (c: char)
    requires d < 10
    ensures IsDigit(c)
  {
    ('0' as int + d) as char
  }

  function DigitValue(c: char): (d: nat)
    requires IsDigit(c)
    ensures d < 10 && DigitChar(d) == c
  {
    (c as int - '0' as int) as nat
  }

  /** JavaScript's `length` of a string: UTF-16 code units, so a character
      outside the Basic Multilingual Plane counts twice. */
  function Utf16Length(s: string): (n: nat)
    ensures |s| <= n <= 2 * |s|
    ensures n == |s| <==> forall i | 0 <= i < |s| :: (s[i] as int) < 0x10000
  {
    if s == [] then 0
    else
      assert forall i | 0 <= i < |s[1..]| :: s[1..][i] == s[i + 1];
      (if (s[0] as int) < 0x10000 then 1 else 2) + Utf16Length(s[1..])
  }

  /** Decimal digits are one code unit each. */
  lemma DigitsUtf16Length(s: string)
    ensures AllDigits(s) ==> Utf16Length(s) == |s|
  {
  }

  /** The decimal numeral of `n`, most significant digit first, as `Number.toString()`. */
  function Decimal(n: nat): (s: string)
    ensures |s| >= 1 && AllDigits(s)
    decreases n
  {
    if n < 10 then [DigitChar(n)] else Decimal(n / 10) + [DigitChar(n % 10)]
  }

  /** The number a string of decimal digits denotes. */
  function Value(s: string): nat
    requires AllDigits(s)
  {
    if s == [] then 0 else Value(s[..|s| - 1]) * 10 + DigitValue(s[|s| - 1])
  }

  /** Reading back a rendered numeral gives the number. */
  lemma {:induction false} ValueOfDecimal(n: nat)
    ensures Value(Decimal(n)) == n
    decreases n
  {
    var s := Decimal(n);
    if n >= 10 {
      ValueOfDecimal(n / 10);
      assert s[..|s| - 1] == Decimal(n / 10);
    }
  }

  /** A numeral of `k` digits exactly covers the numbers in `[10^(k-1), 10^k)`. */
  lemma {:induction false} DecimalLength(n: nat, k: nat)
    requires k >= 1 && Pow10(k - 1) <= n < Pow10(k)
    ensures |Decimal(n)| == k
    decreases n
  {
    if k >= 2 {
      assert Pow10(k - 1) == 10 * Pow10(k - 2);
    }
    if n >= 10 {
      DecimalLength(n / 10, k - 1);
    }
  }

  /** Only zero is rendered with a leading `'0'`. */
  lemma {:induction false} DecimalNoLeadingZero(n: nat)
    requires n > 0
    ensures Decimal(n)[0] != '0'
    decreases n
  {
    if n >= 10 {
      DecimalNoLeadingZero(n / 10);
    }
  }

  /** A numeral without a leading zero denotes at least `10^(|s|-1)`, and
      every digit string denotes less than `10^|s|`. */
  lemma {:induction false} ValueBounds(s: string)
    requires |s| >= 1 && AllDigits(s)
    ensures Value(s) < Pow10(|s|)
    ensures s[0] != '0' ==> Pow10(|s| - 1) <= Value(s)
    decreases |s|
  {
    if |s| > 1 {
      var p := s[..|s| - 1];
      assert p[0] == s[0];
      ValueBounds(p);
    }
  }

  /** Rendering the value of a canonical numeral gives the numeral back. */
  lemma {:induction false} DecimalOfValue(s: string)
    requires |s| >= 1 && AllDigits(s) && (s[0] != '0' || |s| == 1)
    ensures Decimal(Value(s)) == s
    decreases |s|
  {
    if |s| > 1 {
      var p := s[..|s| - 1];
      assert p[0] == s[0];
      ValueBounds(p);
      DecimalOfValue(p);
      var v := Value(s);
      assert v == Value(p) * 10 + DigitValue(s[|s| - 1]);
      assert v / 10 == Value(p) && v % 10 == DigitValue(s[|s| - 1]);
      assert s == p + [s[|s| - 1]];
    }
  }
}

=== FILE: broker.dfy ===
/** The whole broker as one state machine: the shared registry, the live
    Socket.IO connections and the Android client table, driven by a trace
    of events. The per-session expiry timer and the five-minute sweep are
    events of their own. An event is enabled when the uuid it would consume
    is fresh, which is what `uuidv4` is trusted to provide. */
module Broker {
  import opened Base
  import opened Registry
  import Router
  import AndroidIngress

  datatype Broker = Broker(reg: Registry, sockets: map<string, Router.Conn>, clients: AndroidIngress.Clients)

  const Start := Broker(Empty, map[], map[])

  /** Which Android connect path runs: the one in the source, which
      overwrites the new session's code, or the corrected one, which
      announces the registry's code. */
  datatype Ingress = AsWritten | Corrected

  datatype Event =
    | SocketOpen(socketId: string, who: Router.Identity)
    | SocketMessage(socketId: string, msg: Router.Inbound, env: Router.Env)
    | AndroidConnect(clientId: string, aenv: AndroidIngress.Env)
    | AndroidMessage(clientId: string, amsg: AndroidIngress.Inbound, aenv: AndroidIngress.Env)
    | AndroidClose(clientId: string)
    | ExpiryTimer(sessionId: string)
    | SweepTimer(now: int)

  predicate UnusedId(b: Broker, id: string) {
    id != "" && id !in b.reg.sessions
  }

  predicate Enabled(b: Broker, ev: Event) {
    match ev
    case SocketMessage(sid, msg, env) =>
      sid in b.sockets && (msg.CreateSessionMsg? ==> UnusedId(b, env.freshId))
    case AndroidConnect(_, aenv) => UnusedId(b, aenv.freshId)
    case AndroidMessage(_, _, aenv) => UnusedId(b, aenv.freshId)
    case _ => true
  }

  /** One event. A successful handshake opens a connection in its personal
      room; a `disconnect` message closes it. */
  function Step(b: Broker, ev: Event, ingress: Ingress): Broker
    requires Enabled(b, ev)
  {
    match ev
    case SocketOpen(sid, who) =>
      b.(sockets := b.sockets[sid := Router.Conn(Router.Context(who.userId, who.role, None), {who.userId})])
    case SocketMessage(sid, msg, env) =>
      var o := Router.Handle(b.sockets[sid], b.reg, msg, env);
      var sockets := if msg.DisconnectMsg? then b.sockets - {sid} else b.sockets[sid := o.conn];
      Broker(o.reg, sockets, b.clients)
    case AndroidConnect(cid, aenv) =>
      var st := if ingress == AsWritten then AndroidIngress.Connect(b.clients, b.reg, cid, aenv)
                else AndroidIngress.ConnectAnnouncingRegistryCode(b.clients, b.reg, cid, aenv);
      Broker(st.reg, b.sockets, st.clients)
    case AndroidMessage(cid, amsg, aenv) =>
      var st := AndroidIngress.OnMessage(b.clients, b.reg, cid, amsg, aenv);
      Broker(st.reg, b.sockets, st.clients)
    case AndroidClose(cid) =>
      var st := AndroidIngress.Close(b.clients, b.reg, cid);
      Broker(st.reg, b.sockets, st.clients)
    case ExpiryTimer(id) => b.(reg := EndSession(b.reg, id))
    case SweepTimer(now) => b.(reg := Sweep(b.reg, now))
  }

  /** The state after a trace, or `None` once an event is not enabled. */
  function Run(b: Broker, trace: seq<Event>, ingress: Ingress): Option<Broker>
    decreases |trace|
  {
    if trace == [] then Some(b)
    else if !Enabled(b, trace[0]) then None
    else Run(Step(b, trace[0], ingress), trace[1..], ingress)
  }

  /** Every event keeps every Android client authenticated, and keeps the
      registry valid except the Android connect path as written. */
  lemma StepKeepsInvariants(b: Broker, ev: Event, ingress: Ingress)
    requires Enabled(b, ev)
    ensures (ingress == Corrected || !ev.AndroidConnect?) && Valid(b.reg) ==> Valid(Step(b, ev, ingress).reg)
    ensures AndroidIngress.AllAuthenticated(b.clients) ==>
              AndroidIngress.AllAuthenticated(Step(b, ev, ingress).clients)
  {
  }

  /** With the corrected connect path the id table and the code index agree
      after every trace; with the path as written they do on every trace
      that avoids it. On every trace Android clients stay authenticated. */
  lemma {:induction false} TraceKeepsInvariants(b: Broker, trace: seq<Event>, ingress: Ingress)
    requires Run(b, trace, ingress).Some?
    ensures (ingress == Corrected || forall i | 0 <= i < |trace| :: !trace[i].AndroidConnect?) && Valid(b.reg) ==>
              Valid(Run(b, trace, ingress).value.reg)
    ensures AndroidIngress.AllAuthenticated(b.clients) ==>
              AndroidIngress.AllAuthenticated(Run(b, trace, ingress).value.clients)
    decreases |trace|
  {
    if trace != [] {
      StepKeepsInvariants(b, trace[0], ingress);
      TraceKeepsInvariants(Step(b, trace[0], ingress), trace[1..], ingress);
      assert forall i | 0 <= i < |trace[1..]| :: trace[1..][i] == trace[i + 1];
    }
  }

  /** A one-event trace that leaves the registry invalid under the source's
      connect path and valid under the corrected one: an Android connection
      on a fresh broker. */
  lemma AndroidConnectBreaksRegistry()
    ensures var ev := AndroidConnect("android_x", AndroidIngress.Env(0, "s1", [0], 1, ""));
            && Run(Start, [ev], AsWritten).Some?
            && !Valid(Run(Start, [ev], AsWritten).value.reg)
            && Valid(Run(Start, [ev], Corrected).value.reg)
  {
    var aenv := AndroidIngress.Env(0, "s1", [0], 1, "");
    var ev := AndroidConnect("android_x", aenv);
    assert Enabled(Start, ev);
    assert Run(Start, [ev], AsWritten) == Run(Step(Start, ev, AsWritten), [], AsWritten);
    assert Step(Start, ev, AsWritten).reg == AndroidIngress.Connect(map[], Empty, "android_x", aenv).reg;
    AndroidIngress.AnnouncedCodeUnknown(aenv, 0);
    assert Run(Start, [ev], Corrected) == Run(Step(Start, ev, Corrected), [], Corrected);
    assert Valid(Start.reg);
    TraceKeepsInvariants(Start, [ev], Corrected);
  }
}

=== FILE: codes.dfy ===
/** Six-digit pairing codes. Both `generateSessionCode` functions of the
    backend compute `Math.floor(100000 + Math.random() * 900000).toString()`;
    the random draw is modelled by its integer part `k`, one of 900,000
    equally likely values. */
module SessionCodes {
  import opened Base

  /** The integer part of `Math.random() * 900000`, for `Math.random()` in `[0, 1)`. */
  type Draw = k: nat | k < 900000

  /** Exactly six decimal digits and no leading zero. */
  predicate IsSessionCode(s: string) {
    |s| == 6 && AllDigits(s) && s[0] != '0'
  }

  /** The code a draw produces. */
  function CodeOf(k: Draw): (code: string)
    ensures IsSessionCode(code)
    ensures Value(code) == 100000 + k
  {
    var code := Decimal(100000 + k);
    assert Pow10(5) == 100000 && Pow10(6) == 1000000;
    DecimalLength(100000 + k, 6);
    DecimalNoLeadingZero(100000 + k);
    ValueOfDecimal(100000 + k);
    code
  }

  /** Distinct draws give distinct codes. */
  lemma CodeOfInjective(a: Draw, b: Draw)
    requires CodeOf(a) == CodeOf(b)
    ensures a == b
  {
  }

  /** Conversely, every six-digit code without a leading zero is produced
      by exactly one draw, so the generator ranges over all of them. */
  lemma SessionCodeIsDrawn(s: string) returns (k: Draw)
    requires IsSessionCode(s)
    ensures CodeOf(k) == s
  {
    ValueBounds(s);
    assert Pow10(5) == 100000 && Pow10(6) == 1000000;
    k := Value(s) - 100000;
    DecimalOfValue(s);
  }
}

=== FILE: guest_session.dfy ===
/** The Android guest's persisted session state (the `SessionManager`
    singleton in android-plugin/.../utils/SessionManager.java): an auth
    token, the current session code and an active flag, mirrored into a
    SharedPreferences store under three keys. `null` is `None`. */
module GuestSession {
  import opened Base

  const KeyAuthToken := "auth_token"
  const KeySessionCode := "session_code"
  const KeyIsActive := "is_active"

  datatype State = State(token: Option<string>, code: Option<string>, active: bool)

  /** The preference store: string entries and boolean entries. */
  datatype Prefs = Prefs(strings: map<string, string>, bools: map<string, bool>)

  const EmptyPrefs := Prefs(map[], map[])

  /** The in-memory fields together with the store they are saved to. */
  datatype Manager = Manager(state: State, prefs: Prefs)

  /** `getString(key, null)`. */
  function GetString(p: Prefs, key: string): Option<string> {
    if key in p.strings then Some(p.strings[key]) else None
  }

  /** `getBoolean(key, false)`. */
  function GetBoolean(p: Prefs, key: string): bool {
    if key in p.bools then p.bools[key] else false
  }

  /** `putString(key, value)`; a `null` value removes the entry. */
  function PutString(p: Prefs, key: string, value: Option<string>): Prefs {
    match value
    case Some(v) => p.(strings := p.strings[key := v])
    case None => p.(strings := p.strings - {key})
  }

  /** `loadSession()`. */
  function Load(p: Prefs): (s: State)
    ensures p == EmptyPrefs ==> s == State(None, None, false)
    ensures s.token.Some? <==> KeyAuthToken in p.strings
    ensures s.code.Some? <==> KeySessionCode in p.strings
  {
    State(GetString(p, KeyAuthToken), GetString(p, KeySessionCode), GetBoolean(p, KeyIsActive))
  }

  /** `saveSession()`: write the three fields, keep every other entry. */
  function Save(p: Prefs, s: State): (p': Prefs)
    ensures forall k | k !in {KeyAuthToken, KeySessionCode} :: GetString(p', k) == GetString(p, k)
    ensures forall k | k != KeyIsActive :: GetBoolean(p', k) == GetBoolean(p, k)
  {
    var p1 := PutString(p, KeyAuthToken, s.token);
    var p2 := PutString(p1, KeySessionCode, s.code);
    p2.(bools := p2.bools[KeyIsActive := s.active])
  }

  /** Loading what was saved restores it, whatever the store held before. */
  lemma LoadSave(p: Prefs, s: State)
    ensures Load(Save(p, s)) == s
  {
  }

  /** The fields agree with the store. */
  predicate Persisted(m: Manager) {
    Load(m.prefs) == m.state
  }

  /** The constructor: load from the store. An empty store gives no token,
      no code and an inactive flag. */
  function Open(p: Prefs): (m: Manager)
    ensures Persisted(m)
    ensures p == EmptyPrefs ==> m.state == State(None, None, false)
  {
    Manager(Load(p), p)
  }

  function SetAuthToken(m: Manager, token: Option<string>): (m': Manager)
    ensures m'.state == m.state.(token := token)
    ensures Persisted(m')
  {
    var s := m.state.(token := token);
    Manager(s, Save(m.prefs, s))
  }

  function SetCurrentSession(m: Manager, code: Option<string>): (m': Manager)
    ensures m'.state == State(m.state.token, code, true)
    ensures Persisted(m')
  {
    var s := m.state.(code := code, active := true);
    Manager(s, Save(m.prefs, s))
  }

  /** `isSessionActive()`: the flag is set and a code is present. For a
      manager that agrees with its store, the answer can be read off the
      store alone. */
  function IsSessionActive(m: Manager): (b: bool)
    ensures Persisted(m) ==>
              (b <==> GetBoolean(m.prefs, KeyIsActive) && KeySessionCode in m.prefs.strings)
  {
    m.state.active && m.state.code.Some?
  }

  function EndSession(m: Manager): (m': Manager)
    ensures m'.state == State(m.state.token, None, false)
    ensures !IsSessionActive(m')
    ensures Persisted(m')
  {
    var s := m.state.(code := None, active := false);
    Manager(s, Save(m.prefs, s))
  }

  /** `clearAll()`: reset the fields and wipe the whole store. */
  function ClearAll(m: Manager): (m': Manager)
    ensures m'.state == State(None, None, false)
    ensures m'.prefs == EmptyPrefs
    ensures Persisted(m')
  {
    Manager(State(None, None, false), EmptyPrefs)
  }

  /** Setting a session makes it active exactly when a code was given; the
      token survives both setting and ending a session; a restart (re-open
      from the store) sees the same state. */
  lemma SessionLifecycle(m: Manager, code: Option<string>)
    ensures IsSessionActive(SetCurrentSession(m, code)) <==> code.Some?
    ensures EndSession(SetCurrentSession(m, code)).state.token == m.state.token
    ensures Open(SetCurrentSession(m, code).prefs).state == SetCurrentSession(m, code).state
    ensures Open(EndSession(m).prefs).state == EndSession(m).state
  {
  }
}

=== FILE: ingress.dfy ===
/** The secondary WebSocket ingress for Android guests
    (backend/src/services/androidWebSocketService.ts). Its client table maps
    a generated `android_…` client id to the client's user id, bound session
    id and an `authenticated` flag that every path sets to true; it shares
    the registry with the Socket.IO router. */
module AndroidIngress {
  import opened Base
  import opened SessionCodes
  import opened Registry

  datatype Client = Client(userId: string, sessionId: Option<string>, authenticated: bool)

  type Clients = map<string, Client>

  /** Messages sent to the Android socket. */
  datatype Reply =
    | SessionAnnounced(sessionCode: string, sessionId: string, status: string)
    | AuthSuccess(userId: string, status: string)
    | SessionCreated(sessionCode: string, sessionId: string)
    | ErrorReply(error: string)

  /** A frame from the Android socket: not JSON; the JSON `null`, on which
      reading `type` throws once the client has been looked up; or any other
      JSON value, whose `type` (possibly absent) selects the handler. */
  datatype Inbound = Unparseable | NullFrame | Parsed(kind: string)

  /** The clock reading, the next uuid, the random draws of the registry,
      the separately drawn announcement code and the random suffix of a
      generated user id. */
  datatype Env = Env(now: nat, freshId: string, draws: seq<Draw>, codeDraw: Draw, suffix: string)

  datatype Step = Step(clients: Clients, reg: Registry, replies: seq<Reply>)

  /** The `android_<Date.now()>` session id the connect path announces. */
  function AnnouncedSessionId(now: nat): string {
    "android_" + Decimal(now)
  }

  /** Every registered client is marked authenticated. */
  predicate AllAuthenticated(clients: Clients) {
    forall id | id in clients :: clients[id].authenticated
  }

  // ------------------------------------------------------------------ connect

  /** The `connection` handler: register the client, create a registry
      session for it, then overwrite that session's `code` with an
      independently drawn one and announce that code. The code index is not
      touched. When the draws never yield a free code the source's synchronous
      re-draw loop would block the process; here the client stays
      registered and nothing is sent. */
  function Connect(clients: Clients, reg: Registry, clientId: string, env: Env): (st: Step)
    requires env.freshId != "" && env.freshId !in reg.sessions
    ensures st.clients == clients[clientId := Client(clientId, Some(AnnouncedSessionId(env.now)), true)]
    ensures AllAuthenticated(clients) ==> AllAuthenticated(st.clients)
    ensures CreateSession(reg, clientId, env.freshId, env.draws, env.now).None? ==> st.reg == reg && st.replies == []
    ensures CreateSession(reg, clientId, env.freshId, env.draws, env.now).Some? ==>
              var c := CreateSession(reg, clientId, env.freshId, env.draws, env.now).value;
              && st.replies == [SessionAnnounced(CodeOf(env.codeDraw), AnnouncedSessionId(env.now), "connected")]
              && st.reg.byCode == c.reg.byCode
              && st.reg.sessions == c.reg.sessions[env.freshId := c.session.(code := CodeOf(env.codeDraw))]
  {
    var sid := AnnouncedSessionId(env.now);
    var clients' := clients[clientId := Client(clientId, Some(sid), true)];
    match CreateSession(reg, clientId, env.freshId, env.draws, env.now)
    case None => Step(clients', reg, [])
    case Some(c) =>
      var announced := CodeOf(env.codeDraw);
      var s := c.session.(code := announced);
      Step(clients', Registry(c.reg.sessions[s.id := s], c.reg.byCode), [SessionAnnounced(announced, sid, "connected")])
  }

  /** When the two draws differ, the connect path leaves the registry with
      disagreeing indices, and the code it announces either finds no session
      or finds another guest's session: a controller typing it can never
      join the session just created. */
  lemma ConnectBreaksIndex(clients: Clients, reg: Registry, clientId: string, env: Env, controllerId: string, t: int)
    requires Valid(reg)
    requires env.freshId != "" && env.freshId !in reg.sessions
    requires CreateSession(reg, clientId, env.freshId, env.draws, env.now).Some?
    requires CodeOf(env.codeDraw) != CreateSession(reg, clientId, env.freshId, env.draws, env.now).value.session.code
    ensures var st := Connect(clients, reg, clientId, env);
            var announced := CodeOf(env.codeDraw);
            && !IndexAgrees(st.reg)
            && (GetSessionByCode(st.reg, announced).None? || GetSessionByCode(st.reg, announced).value.id != env.freshId)
            && (JoinSession(st.reg, announced, controllerId, t).result.Ok? ==>
                  JoinSession(st.reg, announced, controllerId, t).result.value.id != env.freshId)
  {
    var st := Connect(clients, reg, clientId, env);
    var c := CreateSession(reg, clientId, env.freshId, env.draws, env.now).value;
    var announced := CodeOf(env.codeDraw);
    assert st.reg.sessions[env.freshId].code == announced;
    if announced in st.reg.byCode {
      assert announced in reg.byCode;
      assert st.reg.byCode[announced] == reg.byCode[announced] != env.freshId;
    }
  }

  /** A concrete instance: on an empty registry, draws 0 and 1 give the
      registry code "100000" and the announced code "100001"; the announced
      code is unknown to every lookup. */
  lemma AnnouncedCodeUnknown(env: Env, t: int)
    requires env.freshId == "s1" && env.draws == [0] && env.codeDraw == 1
    ensures var st := Connect(map[], Empty, "android_x", env);
            && !IndexAgrees(st.reg)
            && GetSessionByCode(st.reg, CodeOf(1)).None?
            && JoinSession(st.reg, CodeOf(1), "controller", t).result == Err("Session not found")
  {
    assert CodeOf(0) != CodeOf(1) by {
      if CodeOf(0) == CodeOf(1) {
        CodeOfInjective(0, 1);
      }
    }
  }

  /** The connect path as evidently intended: announce the code the registry
      drew, so that the registry stays valid and the announced code leads
      to the new session. */
  function ConnectAnnouncingRegistryCode(clients: Clients, reg: Registry, clientId: string, env: Env): (st: Step)
    requires env.freshId != "" && env.freshId !in reg.sessions
    ensures st.clients == clients[clientId := Client(clientId, Some(AnnouncedSessionId(env.now)), true)]
    ensures Valid(reg) ==> Valid(st.reg)
    ensures |st.replies| <= 1
    ensures CreateSession(reg, clientId, env.freshId, env.draws, env.now).Some? ==>
              var c := CreateSession(reg, clientId, env.freshId, env.draws, env.now).value;
              && st.reg == c.reg
              && st.replies == [SessionAnnounced(c.session.code, AnnouncedSessionId(env.now), "connected")]
    ensures CreateSession(reg, clientId, env.freshId, env.draws, env.now).None? ==> st.reg == reg && st.replies == []
    ensures forall i | 0 <= i < |st.replies| ::
              && st.replies[i].SessionAnnounced?
              && GetSessionByCode(st.reg, st.replies[i].sessionCode).Some?
              && GetSessionByCode(st.reg, st.replies[i].sessionCode).value.id == env.freshId
              && GetSessionByCode(st.reg, st.replies[i].sessionCode).value.guestId == clientId
  {
    var sid := AnnouncedSessionId(env.now);
    var clients' := clients[clientId := Client(clientId, Some(sid), true)];
    match CreateSession(reg, clientId, env.freshId, env.draws, env.now)
    case None => Step(clients', reg, [])
    case Some(c) => Step(clients', c.reg, [SessionAnnounced(c.session.code, sid, "connected")])
  }

  // ----------------------------------------------------------------- messages

  /** `handleAuthentication`: a fresh `guest_…` user id, no credential check. */
  function Authenticate(clients: Clients, reg: Registry, clientId: string, env: Env): (st: Step)
    requires clientId in clients
    ensures st.reg == reg
    ensures st.clients.Keys == clients.Keys
    ensures st.clients[clientId] == clients[clientId].(userId := "guest_" + env.suffix, authenticated := true)
    ensures forall other | other in clients && other != clientId :: st.clients[other] == clients[other]
    ensures st.replies == [AuthSuccess("guest_" + env.suffix, "authenticated")]
  {
    var userId := "guest_" + env.suffix;
    var client := clients[clientId].(userId := userId, authenticated := true);
    Step(clients[clientId := client], reg, [AuthSuccess(userId, "authenticated")])
  }

  /** `handleCreateSession`: a new registry session for the client's current
      user id; the client is rebound to it and earlier sessions stay. */
  function OnCreateSession(clients: Clients, reg: Registry, clientId: string, env: Env): (st: Step)
    requires clientId in clients
    requires env.freshId != "" && env.freshId !in reg.sessions
    ensures !clients[clientId].authenticated ==> st == Step(clients, reg, [ErrorReply("Not authenticated")])
    ensures forall id | id in reg.sessions :: id in st.reg.sessions && st.reg.sessions[id] == reg.sessions[id]
    ensures Valid(reg) ==> Valid(st.reg)
    ensures st.clients.Keys == clients.Keys
    ensures forall other | other in clients && other != clientId :: st.clients[other] == clients[other]
    ensures clients[clientId].authenticated && (exists j | 0 <= j < |env.draws| :: CodeOf(env.draws[j]) !in reg.byCode) ==>
              && st.clients[clientId] == clients[clientId].(sessionId := Some(env.freshId))
              && st.reg == CreateSession(reg, clients[clientId].userId, env.freshId, env.draws, env.now).value.reg
              && env.freshId in st.reg.sessions
              && st.reg.sessions.Keys == reg.sessions.Keys + {env.freshId}
              && st.reg.sessions[env.freshId].guestId == clients[clientId].userId
              && st.reg.sessions[env.freshId].status == Waiting
              && GetSessionByCode(st.reg, st.reg.sessions[env.freshId].code) == Some(st.reg.sessions[env.freshId])
              && st.replies == [SessionCreated(st.reg.sessions[env.freshId].code, env.freshId)]
    ensures clients[clientId].authenticated && (forall j | 0 <= j < |env.draws| :: CodeOf(env.draws[j]) in reg.byCode) ==>
              st == Step(clients, reg, [ErrorReply("Failed to create session")])
  {
    var client := clients[clientId];
    if !client.authenticated then Step(clients, reg, [ErrorReply("Not authenticated")])
    else match CreateSession(reg, client.userId, env.freshId, env.draws, env.now)
      case None => Step(clients, reg, [ErrorReply("Failed to create session")])
      case Some(c) =>
        assert c.session.id == env.freshId && c.reg.sessions[env.freshId] == c.session;
        Step(clients[clientId := client.(sessionId := Some(c.session.id))], c.reg,
             [SessionCreated(c.session.code, c.session.id)])
  }

  /** The `message` handler: unparseable frames are answered with an error,
      and so is a `null` frame from a registered client; frames for a client
      no longer in the table and unknown types are dropped. */
  function OnMessage(clients: Clients, reg: Registry, clientId: string, m: Inbound, env: Env): (st: Step)
    requires env.freshId != "" && env.freshId !in reg.sessions
    ensures m.Unparseable? ==> st == Step(clients, reg, [ErrorReply("Invalid message format")])
    ensures m.NullFrame? ==> st.clients == clients && st.reg == reg
    ensures m.NullFrame? ==> (st.replies != [] <==> clientId in clients)
    ensures m.NullFrame? && clientId in clients ==> st.replies == [ErrorReply("Invalid message format")]
    ensures m.Parsed? && (clientId !in clients || m.kind !in {"authenticate", "create-session"}) ==>
              st == Step(clients, reg, [])
    ensures Valid(reg) ==> Valid(st.reg)
    ensures AllAuthenticated(clients) ==> AllAuthenticated(st.clients)
    ensures AllAuthenticated(clients) ==> ErrorReply("Not authenticated") !in st.replies
    ensures st.clients.Keys == clients.Keys
  {
    match m
    case Unparseable => Step(clients, reg, [ErrorReply("Invalid message format")])
    case NullFrame =>
      if clientId in clients then Step(clients, reg, [ErrorReply("Invalid message format")])
      else Step(clients, reg, [])
    case Parsed(kind) =>
      if clientId !in clients then Step(clients, reg, [])
      else if kind == "authenticate" then Authenticate(clients, reg, clientId, env)
      else if kind == "create-session" then OnCreateSession(clients, reg, clientId, env)
      else Step(clients, reg, [])
  }

  /** `close` and `error`: the client leaves the table; its sessions stay
      registered. */
  function Close(clients: Clients, reg: Registry, clientId: string): (st: Step)
    ensures st.clients.Keys == clients.Keys - {clientId}
    ensures forall id | id in st.clients :: st.clients[id] == clients[id]
    ensures st.reg == reg && st.replies == []
  {
    Step(clients - {clientId}, reg, [])
  }
}

=== FILE: listeners.dfy ===
/** The mobile client's socket wrapper (mobile-app/src/services/socketService.ts):
    a possibly-present socket and a map from event name to the callbacks
    registered for it. Callbacks are identified by number, standing for the
    identity of the JavaScript function objects that `indexOf` compares. */
module MobileSocket {
  import opened Base

  type Callback = nat

  /** A Socket.IO client socket; `connected` turns true once the transport
      has finished connecting. */
  datatype Socket = Socket(connected: bool)

  datatype Client = Client(socket: MaybeSocket, listeners: map<string, seq<Callback>>)

  /** `Socket | null`. */
  datatype MaybeSocket = NoSocket | Present(s: Socket)

  const Fresh := Client(NoSocket, map[])

  predicate IsConnected(c: Client) {
    c.socket.Present? && c.socket.s.connected
  }

  /** The callbacks registered for `e`, in list order (empty when absent). */
  function ListenersOf(c: Client, e: string): seq<Callback> {
    if e in c.listeners then c.listeners[e] else []
  }

  // ---------------------------------------------------------- the socket

  /** `connect(token)`: no-op when already connected; otherwise a new,
      not yet connected socket replaces whatever was there. */
  function Connect(c: Client): (c': Client)
    ensures IsConnected(c) ==> c' == c
    ensures !IsConnected(c) ==> c'.socket == Present(Socket(false)) && c'.listeners == c.listeners
  {
    if IsConnected(c) then c else c.(socket := Present(Socket(false)))
  }

  /** The transport finished connecting the current socket. */
  function Established(c: Client): (c': Client)
    ensures c.socket.Present? ==> IsConnected(c')
    ensures c'.listeners == c.listeners
  {
    match c.socket
    case NoSocket => c
    case Present(_) => c.(socket := Present(Socket(true)))
  }

  /** A message to the server. */
  datatype Outgoing = Outgoing(event: string, data: string)

  /** `emit(event, data)`: sent only over a connected socket. */
  function Emit(c: Client, e: string, data: string): (sent: seq<Outgoing>)
    ensures |sent| <= 1
    ensures sent != [] <==> IsConnected(c)
    ensures forall i | 0 <= i < |sent| :: sent[i] == Outgoing(e, data)
  {
    if IsConnected(c) then [Outgoing(e, data)] else []
  }

  /** `disconnect()`: drop the socket and every listener entry. */
  function Disconnect(c: Client): (c': Client)
    ensures !IsConnected(c')
    ensures forall e :: ListenersOf(c', e) == []
  {
    Client(NoSocket, map[])
  }

  // ------------------------------------------------------------- listeners

  /** `on(e, cb)`: append, creating the list when absent. */
  function On(c: Client, e: string, cb: Callback): (c': Client)
    ensures e in c'.listeners && ListenersOf(c', e) == ListenersOf(c, e) + [cb]
    ensures forall other | other != e :: ListenersOf(c', other) == ListenersOf(c, other)
    ensures c'.listeners.Keys == c.listeners.Keys + {e}
    ensures c'.socket == c.socket
  {
    c.(listeners := c.listeners[e := ListenersOf(c, e) + [cb]])
  }

  /** `indexOf(x)`: the first position of `x`, or -1. */
  function IndexOf(s: seq<Callback>, x: Callback): (i: int)
    ensures -1 <= i < |s|
    ensures i == -1 <==> x !in s
    ensures i >= 0 ==> s[i] == x && forall k | 0 <= k < i :: s[k] != x
  {
    if s == [] then -1
    else if s[0] == x then 0
    else
      var j := IndexOf(s[1..], x);
      if j == -1 then -1 else j + 1
  }

  /** `splice(indexOf(x), 1)` when `x` is present. */
  function RemoveFirst(s: seq<Callback>, x: Callback): (r: seq<Callback>)
    ensures x !in s ==> r == s
    ensures x in s ==> exists i | 0 <= i < |s| :: s[i] == x && x !in s[..i] && r == s[..i] + s[i + 1..]
    ensures multiset(r) == multiset(s) - multiset{x}
  {
    var i := IndexOf(s, x);
    if i < 0 then s
    else
      assert x !in s[..i];
      assert s == s[..i] + [s[i]] + s[i + 1..];
      s[..i] + s[i + 1..]
  }

  /** `off(e, cb)` with a callback, `off(e)` without one. An event with no
      list is left alone; `off(e)` empties the list but keeps the entry. */
  function Off(c: Client, e: string, cb: Option<Callback>): (c': Client)
    ensures e !in c.listeners ==> c' == c
    ensures e in c.listeners && cb.None? ==> e in c'.listeners && c'.listeners[e] == []
    ensures e in c.listeners && cb.Some? ==> ListenersOf(c', e) == RemoveFirst(ListenersOf(c, e), cb.value)
    ensures c'.listeners.Keys == c.listeners.Keys
    ensures forall other | other != e :: ListenersOf(c', other) == ListenersOf(c, other)
    ensures c'.socket == c.socket
  {
    if e !in c.listeners then c
    else match cb
      case Some(f) => c.(listeners := c.listeners[e := RemoveFirst(c.listeners[e], f)])
      case None => c.(listeners := c.listeners[e := []])
  }

  /** Adding a callback that was not registered and removing it again gives
      back the same list. */
  lemma OffUndoesOn(c: Client, e: string, cb: Callback)
    requires cb !in ListenersOf(c, e)
    ensures ListenersOf(Off(On(c, e, cb), e, Some(cb)), e) == ListenersOf(c, e)
  {
    var s := ListenersOf(c, e);
    assert (s + [cb])[..|s|] == s;
    assert (s + [cb])[|s| + 1..] == [];
  }

  /** `triggerListeners(e, data)`: the callbacks invoked, in invocation order. */
  function TriggerListeners(c: Client, e: string): (invoked: seq<Callback>)
    ensures e !in c.listeners ==> invoked == []
    ensures e in c.listeners ==> invoked == c.listeners[e]
  {
    ListenersOf(c, e)
  }

  /** Registering several callbacks one after another. */
  function OnAll(c: Client, e: string, cbs: seq<Callback>): Client
    decreases |cbs|
  {
    if cbs == [] then c else OnAll(On(c, e, cbs[0]), e, cbs[1..])
  }

  /** Callbacks fire in registration order, after those already registered. */
  lemma {:induction false} TriggerInRegistrationOrder(c: Client, e: string, cbs: seq<Callback>)
    ensures TriggerListeners(OnAll(c, e, cbs), e) == TriggerListeners(c, e) + cbs
    decreases |cbs|
  {
    if cbs != [] {
      TriggerInRegistrationOrder(On(c, e, cbs[0]), e, cbs[1..]);
      assert [cbs[0]] + cbs[1..] == cbs;
    }
  }

  // ------------------------------------------------- incoming server events

  /** What an event from the server causes: messages sent back and callbacks run. */
  datatype Reaction = Reaction(sent: seq<Outgoing>, invoked: seq<Callback>)

  /** `onAny` as written: the event is handed to `emit`, which sends it back
      to the server; `triggerListeners` is never called, so no callback runs. */
  function OnServerEvent(c: Client, e: string, data: string): (r: Reaction)
    ensures r.invoked == []
    ensures IsConnected(c) ==> r.sent == [Outgoing(e, data)]
  {
    Reaction(Emit(c, e, data), [])
  }

  /** `onAny` as evidently intended: deliver to the registered callbacks, in
      registration order, and send nothing. */
  function DispatchServerEvent(c: Client, e: string, data: string): (r: Reaction)
    ensures r.sent == []
    ensures r.invoked == ListenersOf(c, e)
  {
    Reaction([], TriggerListeners(c, e))
  }

  /** A listener registered for an event never runs when the server sends
      that event, and the event is echoed back; with the intended dispatch
      it runs. */
  lemma ListenerNeverRuns(c: Client, e: string, cb: Callback, data: string)
    requires IsConnected(c)
    ensures cb !in OnServerEvent(On(c, e, cb), e, data).invoked
    ensures OnServerEvent(On(c, e, cb), e, data).sent == [Outgoing(e, data)]
    ensures cb in DispatchServerEvent(On(c, e, cb), e, data).invoked
  {
    assert ListenersOf(On(c, e, cb), e)[|ListenersOf(c, e)|] == cb;
  }
}

=== FILE: lookup.dfy ===
/** The read-only HTTP routes over the registry
    (backend/src/routes/sessionRoutes.ts): `GET /:code` and the
    `activeSessions` field of `GET /stats/server`. Both read the registry
    and never change it: they take a registry and return no new one. */
module SessionRoutes {
  import opened Base
  import opened SessionCodes
  import opened Registry

  /** The public view of a session: no `guestId`, no `controllerId`. */
  datatype Summary = Summary(
    id: string,
    code: string,
    status: Status,
    permissions: Permissions,
    createdAt: int,
    expiresAt: int)

  datatype Body = Failure(error: string) | Success(summary: Summary)

  datatype Response = Response(status: nat, body: Body)

  function SummaryOf(s: Session): Summary {
    Summary(s.id, s.code, s.status, s.permissions, s.createdAt, s.expiresAt)
  }

  /** `GET /:code` at time `now`. Only the length of the code is checked,
      as JavaScript measures it. */
  function LookupByCode(reg: Registry, code: string, now: int): (r: Response)
    ensures r.status == 400 <==> Utf16Length(code) != 6
    ensures r.status == 400 ==> r.body == Failure("Invalid session code format")
    ensures IsSessionCode(code) ==> r.status != 400
    ensures Utf16Length(code) == 6 && GetSessionByCode(reg, code).None? ==> r == Response(404, Failure("Session not found"))
    ensures Utf16Length(code) == 6 && GetSessionByCode(reg, code).Some? && IsExpired(GetSessionByCode(reg, code).value, now) ==>
              r == Response(410, Failure("Session expired"))
    ensures r.status == 200 <==> r.body.Success?
    ensures Utf16Length(code) == 6 && GetSessionByCode(reg, code).Some? && !IsExpired(GetSessionByCode(reg, code).value, now) ==>
              r == Response(200, Success(SummaryOf(GetSessionByCode(reg, code).value)))
    ensures r.body.Success? ==>
              && GetSessionByCode(reg, code).Some?
              && !IsExpired(GetSessionByCode(reg, code).value, now)
              && r.body.summary == SummaryOf(GetSessionByCode(reg, code).value)
    ensures Valid(reg) && r.body.Success? ==> r.body.summary.code == code
  {
    DigitsUtf16Length(code);
    if Utf16Length(code) != 6 then Response(400, Failure("Invalid session code format"))
    else match GetSessionByCode(reg, code)
      case None => Response(404, Failure("Session not found"))
      case Some(s) =>
        if IsExpired(s, now) then Response(410, Failure("Session expired"))
        else Response(200, Success(SummaryOf(s)))
  }

  /** Three characters outside the Basic Multilingual Plane have `length`
      6, so they pass the format check and are looked up like a code. */
  lemma WideCharactersPassFormatCheck(now: int)
    ensures |"\U{1F600}\U{1F600}\U{1F600}"| == 3
    ensures LookupByCode(Empty, "\U{1F600}\U{1F600}\U{1F600}", now) == Response(404, Failure("Session not found"))
  {
  }

  /** The answer never depends on who the participants are: changing the
      guest and controller of every session leaves every lookup unchanged. */
  lemma LookupHidesParticipants(reg: Registry, code: string, now: int, guestId: string, controllerId: Option<string>)
    ensures var masked := Registry(
              map id | id in reg.sessions :: reg.sessions[id].(guestId := guestId, controllerId := controllerId),
              reg.byCode);
            LookupByCode(masked, code, now) == LookupByCode(reg, code, now)
  {
  }

  /** The lookup reports an expired session without ending it: it is still
      found by a later lookup, and a sweep is what removes it. */
  lemma ExpiredIsReportedNotEnded(reg: Registry, code: string, now: int)
    requires Utf16Length(code) == 6 && GetSessionByCode(reg, code).Some?
    requires IsExpired(GetSessionByCode(reg, code).value, now)
    ensures LookupByCode(reg, code, now).status == 410
    ensures Valid(reg) ==>
              var s := GetSessionByCode(reg, code).value;
              && GetSession(reg, s.id) == Some(s)
              && GetSessionByCode(Sweep(reg, now), code).None?
  {
    var s := GetSessionByCode(reg, code).value;
    if Valid(reg) {
      LookupsAgree(reg, code, s);
    }
  }

  /** `activeSessions` of the server stats: the number of connected sessions. */
  method ServerStatsActiveSessions(reg: Registry) returns (activeSessions: nat)
    ensures activeSessions == |ConnectedIds(reg)|
  {
    activeSessions := ActiveSessionsCount(reg);
  }
}

=== FILE: registry.dfy ===
/** The backend's in-memory session registry (`SessionManager` in
    backend/src/services/sessionManager.ts): a table of sessions by id and
    an index from pairing code to session id. Clock readings, random draws
    and uuids are parameters; the per-session `setTimeout` and the
    five-minute `setInterval` become explicit calls of `EndSession` and
    `CleanupExpiredSessions`. */
module Registry {
  import opened Base
  import opened SessionCodes

  /** Lifetime of a session: 30 minutes, in milliseconds. */
  const SessionTtlMs: int := 30 * 60 * 1000

  datatype Status = Waiting | Connected | Disconnected

  datatype Permissions = Permissions(
    screenShare: bool,
    remoteControl: bool,
    fileTransfer: bool,
    audioShare: bool)

  /** Permissions of a freshly created session: screen sharing only. */
  const DefaultPermissions := Permissions(true, false, false, false)

  /** A `Partial<SessionPermissions>`: `None` for every field left out. */
  datatype PermissionPatch = PermissionPatch(
    screenShare: Option<bool>,
    remoteControl: Option<bool>,
    fileTransfer: Option<bool>,
    audioShare: Option<bool>)

  /** A session record. `guestId` is always set by `CreateSession`, so it is
      not optional here; times are milliseconds since the epoch. */
  datatype Session = Session(
    id: string,
    code: string,
    controllerId: Option<string>,
    guestId: string,
    status: Status,
    createdAt: int,
    expiresAt: int,
    permissions: Permissions)

  /** `sessions` maps id to session, `byCode` maps code to id. */
  datatype Registry = Registry(sessions: map<string, Session>, byCode: map<string, string>)

  const Empty := Registry(map[], map[])

  const NotFound := "Session not found"
  const AlreadyControlled := "Session already has a controller"
  const ExpiredError := "Session expired"

  /** `session.expiresAt < now`: a session is still valid at its expiry instant. */
  predicate IsExpired(s: Session, now: int) {
    s.expiresAt < now
  }

  /** The two indices describe the same set of sessions: every stored session
      is reachable through its own code, and every code leads to a stored
      session carrying that code. */
  predicate IndexAgrees(r: Registry) {
    && (forall id | id in r.sessions ::
          r.sessions[id].id == id && r.sessions[id].code in r.byCode && r.byCode[r.sessions[id].code] == id)
    && (forall c | c in r.byCode :: r.byCode[c] in r.sessions && r.sessions[r.byCode[c]].code == c)
  }

  /** The registry invariant: agreeing indices, non-empty ids, well-formed
      codes, and no stored session is `disconnected`. */
  predicate Valid(r: Registry) {
    && IndexAgrees(r)
    && forall id | id in r.sessions ::
         id != "" && r.sessions[id].status != Disconnected && IsSessionCode(r.sessions[id].code)
  }

  /** Id lookup. In a valid registry the session found carries the id asked
      for, and the code index leads back to it. */
  function GetSession(r: Registry, id: string): (res: Option<Session>)
    ensures res.Some? <==> id in r.sessions
    ensures res.Some? ==> res.value == r.sessions[id]
    ensures Valid(r) && res.Some? ==>
              res.value.id == id && res.value.code in r.byCode && r.byCode[res.value.code] == id
  {
    if id in r.sessions then Some(r.sessions[id]) else None
  }

  /** Code lookup; an empty id in the index is falsy and reads as missing.
      In a valid registry it finds a session exactly when some stored
      session carries the code, and the session found carries it. */
  function GetSessionByCode(r: Registry, code: string): (res: Option<Session>)
    ensures code !in r.byCode || r.byCode[code] == "" ==> res.None?
    ensures res.Some? ==> r.byCode[code] in r.sessions && res.value == r.sessions[r.byCode[code]]
    ensures Valid(r) ==> (res.Some? <==> exists id | id in r.sessions :: r.sessions[id].code == code)
    ensures Valid(r) && res.Some? ==> res.value.code == code
  {
    if code in r.byCode && r.byCode[code] != "" then GetSession(r, r.byCode[code]) else None
  }

  /** In a valid registry a session is reachable by its code exactly when it
      is reachable by its id. */
  lemma LookupsAgree(r: Registry, code: string, s: Session)
    requires Valid(r)
    ensures GetSessionByCode(r, code) == Some(s) <==> GetSession(r, s.id) == Some(s) && s.code == code
  {
    if GetSession(r, s.id) == Some(s) && s.code == code {
      assert r.byCode[code] == s.id;
    }
  }

  // ---------------------------------------------------------------- creation

  /** The index of the first draw whose code is not yet in use: the
      `do { … } while (sessionsByCodes.has(code))` re-draw loop over a finite
      stream of draws. */
  function FirstFreeDraw(byCode: map<string, string>, draws: seq<Draw>): (r: Option<nat>)
    ensures r.Some? ==>
              && r.value < |draws|
              && CodeOf(draws[r.value]) !in byCode
              && forall j | 0 <= j < r.value :: CodeOf(draws[j]) in byCode
    ensures r.None? ==> forall j | 0 <= j < |draws| :: CodeOf(draws[j]) in byCode
  {
    if draws == [] then None
    else if CodeOf(draws[0]) !in byCode then Some(0)
    else match FirstFreeDraw(byCode, draws[1..])
      case None => None
      case Some(i) => Some(i + 1)
  }

  datatype Created = Created(session: Session, reg: Registry)

  /** Storing a new session under a fresh id and an unused well-formed code
      keeps the registry valid. */
  lemma InsertKeepsValid(r: Registry, s: Session)
    ensures Valid(r) && s.id != "" && s.id !in r.sessions && s.code !in r.byCode
            && IsSessionCode(s.code) && s.status != Disconnected ==>
              Valid(Registry(r.sessions[s.id := s], r.byCode[s.code := s.id]))
  {
  }

  /** `createSession(guestId)` at time `now`, with `id` the fresh uuid and
      `draws` the random draws. `None` when every draw collides (the source
      would keep drawing). */
  function CreateSession(r: Registry, guestId: string, id: string, draws: seq<Draw>, now: int): (res: Option<Created>)
    requires id != "" && id !in r.sessions
    ensures res.None? <==> forall j | 0 <= j < |draws| :: CodeOf(draws[j]) in r.byCode
    ensures res.Some? ==>
              var s := res.value.session;
              && s.code !in r.byCode
              && IsSessionCode(s.code)
              && (exists j | 0 <= j < |draws| ::
                    s.code == CodeOf(draws[j]) && forall i | 0 <= i < j :: CodeOf(draws[i]) in r.byCode)
              && s.id == id && s.guestId == guestId
              && s.status == Waiting && s.controllerId == None
              && s.permissions == Permissions(true, false, false, false)
              && s.createdAt == now && s.expiresAt == s.createdAt + 1800000
              && res.value.reg.sessions == r.sessions[id := s]
              && res.value.reg.byCode == r.byCode[s.code := id]
    ensures res.Some? ==> res.value.reg.sessions.Keys == r.sessions.Keys + {id}
    ensures res.Some? && Valid(r) ==> Valid(res.value.reg)
    ensures res.Some? ==> GetSessionByCode(res.value.reg, res.value.session.code) == Some(res.value.session)
  {
    match FirstFreeDraw(r.byCode, draws)
    case None => None
    case Some(j) =>
      var code := CodeOf(draws[j]);
      var s := Session(id, code, None, guestId, Waiting, now, now + SessionTtlMs, DefaultPermissions);
      InsertKeepsValid(r, s);
      Some(Created(s, Registry(r.sessions[id := s], r.byCode[code := id])))
  }

  // ------------------------------------------------------------------- ending

  /** `endSession(id)`: drop the session and the index entry under the
      session's own `code` field. A missing id is a no-op. */
  function EndSession(r: Registry, id: string): (r': Registry)
    ensures id !in r'.sessions
    ensures r'.sessions.Keys == r.sessions.Keys - {id}
    ensures forall other | other in r'.sessions :: r'.sessions[other] == r.sessions[other]
    ensures id !in r.sessions ==> r' == r
    ensures Valid(r) ==> Valid(r')
    ensures Valid(r) && id in r.sessions ==>
              && r.sessions[id].code !in r'.byCode
              && r'.byCode.Keys == r.byCode.Keys - {r.sessions[id].code}
              && GetSessionByCode(r', r.sessions[id].code).None?
  {
    if id in r.sessions then
      Registry(r.sessions - {id}, r.byCode - {r.sessions[id].code})
    else r
  }

  /** Ending a session twice is the same as ending it once. */
  lemma EndSessionIdempotent(r: Registry, id: string)
    ensures EndSession(EndSession(r, id), id) == EndSession(r, id)
  {
  }

  // ------------------------------------------------------------------ joining

  datatype Joined = Joined(result: Result<Session>, reg: Registry)

  /** `joinSession(code, controllerId)` at time `now`. The `connected` check
      comes before the expiry check, so an expired but connected session
      reports "Session already has a controller". */
  function JoinSession(r: Registry, code: string, controllerId: string, now: int): (j: Joined)
    ensures GetSessionByCode(r, code).None? ==> j == Joined(Err("Session not found"), r)
    ensures GetSessionByCode(r, code).Some? ==>
              var s := GetSessionByCode(r, code).value;
              var id := r.byCode[code];
              && (s.status == Connected ==> j == Joined(Err("Session already has a controller"), r))
              && (s.status != Connected && s.expiresAt < now ==>
                    j == Joined(Err("Session expired"), EndSession(r, id)))
              && (s.status != Connected && !(s.expiresAt < now) ==>
                    && j.result == Ok(s.(controllerId := Some(controllerId), status := Connected))
                    && j.reg == Registry(r.sessions[id := j.result.value], r.byCode))
    ensures Valid(r) ==> Valid(j.reg)
    ensures j.result.Ok? ==> !IsExpired(j.result.value, now) && j.result.value.status == Connected
    ensures Valid(r) && j.result == Err("Session expired") ==>
              GetSessionByCode(j.reg, code).None? && r.byCode[code] !in j.reg.sessions
  {
    if code !in r.byCode || r.byCode[code] == "" then Joined(Err(NotFound), r)
    else
      var id := r.byCode[code];
      if id !in r.sessions then Joined(Err(NotFound), r)
      else
        var s := r.sessions[id];
        if s.status == Connected then Joined(Err(AlreadyControlled), r)
        else if s.expiresAt < now then Joined(Err(ExpiredError), EndSession(r, id))
        else
          var s' := s.(controllerId := Some(controllerId), status := Connected);
          Joined(Ok(s'), Registry(r.sessions[id := s'], r.byCode))
  }

  /** Joins are exclusive: once a join succeeded, any later join on the same
      code, by any caller at any time, fails with "Session already has a
      controller" and leaves the registry, and so the first controller,
      untouched. */
  lemma SecondJoinFails(r: Registry, code: string, first: string, second: string, t1: int, t2: int)
    requires Valid(r)
    requires JoinSession(r, code, first, t1).result.Ok?
    ensures var j1 := JoinSession(r, code, first, t1);
            var j2 := JoinSession(j1.reg, code, second, t2);
            && j2 == Joined(Err("Session already has a controller"), j1.reg)
            && GetSessionByCode(j2.reg, code).value.controllerId == Some(first)
  {
    var j1 := JoinSession(r, code, first, t1);
    var id := r.byCode[code];
    assert GetSessionByCode(j1.reg, code) == Some(j1.result.value);
  }

  // -------------------------------------------------------------- permissions

  /** `{ ...p, ...patch }`: supplied fields win. */
  function Merge(p: Permissions, patch: PermissionPatch): Permissions {
    Permissions(
      patch.screenShare.GetOr(p.screenShare),
      patch.remoteControl.GetOr(p.remoteControl),
      patch.fileTransfer.GetOr(p.fileTransfer),
      patch.audioShare.GetOr(p.audioShare))
  }

  /** Merging a patch overwrites exactly the fields it supplies. */
  lemma MergeOverwritesOnlySupplied(p: Permissions, patch: PermissionPatch)
    ensures patch.screenShare.Some? ==> Merge(p, patch).screenShare == patch.screenShare.value
    ensures patch.screenShare.None? ==> Merge(p, patch).screenShare == p.screenShare
    ensures patch.remoteControl.Some? ==> Merge(p, patch).remoteControl == patch.remoteControl.value
    ensures patch.remoteControl.None? ==> Merge(p, patch).remoteControl == p.remoteControl
    ensures patch.fileTransfer.Some? ==> Merge(p, patch).fileTransfer == patch.fileTransfer.value
    ensures patch.fileTransfer.None? ==> Merge(p, patch).fileTransfer == p.fileTransfer
    ensures patch.audioShare.Some? ==> Merge(p, patch).audioShare == patch.audioShare.value
    ensures patch.audioShare.None? ==> Merge(p, patch).audioShare == p.audioShare
    ensures Merge(Merge(p, patch), patch) == Merge(p, patch)
  {
  }

  /** `updatePermissions(id, patch)`: merge into the stored session; a no-op
      for an unknown id. */
  function UpdatePermissions(r: Registry, id: string, patch: PermissionPatch): (r': Registry)
    ensures id !in r.sessions ==> r' == r
    ensures r'.byCode == r.byCode
    ensures r'.sessions.Keys == r.sessions.Keys
    ensures forall other | other in r.sessions && other != id :: r'.sessions[other] == r.sessions[other]
    ensures id in r.sessions ==>
              r'.sessions[id] == r.sessions[id].(permissions := Merge(r.sessions[id].permissions, patch))
    ensures Valid(r) ==> Valid(r')
  {
    if id in r.sessions then
      var s := r.sessions[id];
      Registry(r.sessions[id := s.(permissions := Merge(s.permissions, patch))], r.byCode)
    else r
  }

  // ------------------------------------------------------------ observability

  /** Ids of the sessions whose status is `connected`. */
  function ConnectedIds(r: Registry): set<string> {
    set id | id in r.sessions && r.sessions[id].status == Connected
  }

  /** `getActiveSessionsCount()`: filter the stored sessions by status and count. */
  method ActiveSessionsCount(r: Registry) returns (n: nat)
    ensures n == |ConnectedIds(r)|
    ensures n <= |r.sessions|
  {
    var todo := r.sessions.Keys;
    ghost var counted: set<string> := {};
    n := 0;
    while todo != {}
      invariant todo <= r.sessions.Keys
      invariant counted <= r.sessions.Keys - todo
      invariant forall id | id in r.sessions.Keys - todo ::
                  id in counted <==> r.sessions[id].status == Connected
      invariant n == |counted|
      decreases |todo|
    {
      var id :| id in todo;
      if r.sessions[id].status == Connected {
        counted := counted + {id};
        n := n + 1;
      }
      todo := todo - {id};
    }
    assert counted == ConnectedIds(r);
    assert ConnectedIds(r) <= r.sessions.Keys;
    SubsetCard(ConnectedIds(r), r.sessions.Keys);
  }

  lemma SubsetCard<T>(a: set<T>, b: set<T>)
    requires a <= b
    ensures |a| <= |b|
  {
    assert b == a + (b - a);
  }

  // ------------------------------------------------------------------- expiry

  function ExpiredIds(r: Registry, now: int): set<string> {
    set id | id in r.sessions && IsExpired(r.sessions[id], now)
  }

  /** The registry after ending the sessions `gone`, each by `endSession`. */
  function Without(r: Registry, gone: set<string>): Registry {
    Registry(
      map id | id in r.sessions && id !in gone :: r.sessions[id],
      r.byCode - set id | id in gone && id in r.sessions :: r.sessions[id].code)
  }

  /** The registry once every expired session has been ended. */
  function Sweep(r: Registry, now: int): (r': Registry)
    ensures forall id | id in r'.sessions :: !IsExpired(r'.sessions[id], now)
    ensures forall id | id in r.sessions && !IsExpired(r.sessions[id], now) ::
              id in r'.sessions && r'.sessions[id] == r.sessions[id]
    ensures r'.sessions.Keys <= r.sessions.Keys
    ensures Valid(r) ==> Valid(r')
  {
    SweepKeepsValid(r, now);
    Without(r, ExpiredIds(r, now))
  }

  lemma SweepKeepsValid(r: Registry, now: int)
    ensures Valid(r) ==> Valid(Without(r, ExpiredIds(r, now)))
  {
    if !Valid(r) {
      return;
    }
    var gone := ExpiredIds(r, now);
    var codes := set id | id in gone && id in r.sessions :: r.sessions[id].code;
    var r' := Without(r, gone);
    assert forall g | g in gone && g in r.sessions :: r.sessions[g].code in codes;
    forall id | id in r'.sessions
      ensures r'.sessions[id].code in r'.byCode && r'.byCode[r'.sessions[id].code] == id
    {
      var c := r.sessions[id].code;
      forall g | g in gone && g in r.sessions
        ensures r.sessions[g].code != c
      {
        assert r.byCode[r.sessions[g].code] == g;
      }
    }
  }

  /** One `endSession` call of the sweep extends the set of ended sessions by one. */
  lemma EndSessionExtendsWithout(r: Registry, gone: set<string>, id: string)
    requires id in r.sessions && id !in gone
    ensures EndSession(Without(r, gone), id) == Without(r, gone + {id})
  {
    var a := EndSession(Without(r, gone), id);
    var b := Without(r, gone + {id});
    assert a.sessions == b.sessions;
    var codesA := set g | g in gone && g in r.sessions :: r.sessions[g].code;
    var codesB := set g | g in gone + {id} && g in r.sessions :: r.sessions[g].code;
    assert codesB == codesA + {r.sessions[id].code};
    assert a.byCode == b.byCode;
  }

  /** Visiting one more session during the sweep. */
  lemma SweepVisit(r: Registry, now: int, todo: set<string>, id: string)
    requires id in todo && todo <= r.sessions.Keys
    ensures var before := Without(r, ExpiredIds(r, now) - todo);
            var after := Without(r, ExpiredIds(r, now) - (todo - {id}));
            (if IsExpired(r.sessions[id], now) then EndSession(before, id) else before) == after
  {
    var e := ExpiredIds(r, now);
    if IsExpired(r.sessions[id], now) {
      assert (e - todo) + {id} == e - (todo - {id});
      EndSessionExtendsWithout(r, e - todo, id);
    } else {
      assert e - todo == e - (todo - {id});
    }
  }

  /** Ending no session leaves the registry as it was. */
  lemma WithoutNothing(r: Registry)
    ensures Without(r, {}) == r
  {
    assert Without(r, {}).sessions == r.sessions;
  }

  /** `cleanupExpiredSessions()`: visit every stored session and end the
      expired ones. Ending one session never removes another from the id
      table, so the visiting order does not matter. */
  method CleanupExpiredSessions(r: Registry, now: int) returns (out: Registry)
    ensures out == Sweep(r, now)
  {
    out := r;
    var todo := r.sessions.Keys;
    WithoutNothing(r);
    assert ExpiredIds(r, now) - todo == {};
    while todo != {}
      invariant todo <= r.sessions.Keys
      invariant out == Without(r, ExpiredIds(r, now) - todo)
      decreases |todo|
    {
      var id :| id in todo;
      SweepVisit(r, now, todo, id);
      out := if IsExpired(r.sessions[id], now) then EndSession(out, id) else out;
      todo := todo - {id};
    }
    assert ExpiredIds(r, now) - {} == ExpiredIds(r, now);
  }
}

=== FILE: router.dfy ===
/** The Socket.IO signaling router (`setupSocketHandlers` in
    backend/src/services/socketService.ts). Each handler is a pure step
    from (connection, registry, message, environment) to (connection',
    registry', outbox). A connection is its `socket.data` context together
    with the rooms it has joined; an outbox entry is either a reply to the
    sender (an acknowledgement callback or an event on the sender's own
    socket) or a delivery to a room that excludes the sender
    (`socket.to(room).emit`). */
module Router {
  import opened Base
  import opened SessionCodes
  import opened Registry

  datatype Role = Controller | Guest

  /** The payload a verified token carries. */
  datatype Identity = Identity(userId: string, role: Role)

  /** `socket.data` (SocketData): who is speaking and the session bound to the connection. */
  datatype Context = Context(userId: string, role: Role, sessionId: Option<string>)

  /** A live connection: its context and the rooms it belongs to. */
  datatype Conn = Conn(ctx: Context, rooms: set<string>)

  /** `socket.data.sessionId` is truthy. */
  predicate Bound(ctx: Context) {
    Truthy(ctx.sessionId)
  }

  datatype SignalKind = Offer | Answer | IceCandidate

  /** A WebRTC negotiation message; `data` is opaque to the broker. */
  datatype Signal = Signal(kind: SignalKind, sessionId: string, from: string, to: string, data: string)

  datatype ControlKind = Touch | Key | Scroll | Gesture

  /** An input event from controller to guest; `data` is opaque to the broker. */
  datatype ControlEvent = ControlEvent(kind: ControlKind, sessionId: string, data: string)

  datatype Quality = Low | Medium | High

  /** The events a connection can raise. */
  datatype Inbound =
    | CreateSessionMsg
    | JoinSessionMsg(code: string)
    | WebrtcSignal(signal: Signal)
    | ControlEventMsg(event: ControlEvent)
    | AdjustQuality(quality: Quality)
    | UpdatePermissionsMsg(patch: PermissionPatch)
    | DisconnectMsg
    | Ping

  /** What the broker sends. The three `Ack…` forms are the acknowledgement
      callback's `{success, data}` / `{success: false, error}` objects. */
  datatype Event =
    | AckSessionCode(sessionCode: string)
    | AckSession(session: Session)
    | AckError(error: string)
    | ErrorEvent(message: string)
    | ControllerJoined(controllerId: string, sessionId: string)
    | RelayedSignal(signal: Signal)
    | RelayedControl(event: ControlEvent, from: string)
    | QualityChange(quality: Quality)
    | PermissionsUpdated(patch: PermissionPatch)
    | PeerDisconnected(userId: string, role: Role)
    | SessionEnded
    | Pong
  {
    predicate IsError() {
      AckError? || ErrorEvent?
    }
  }

  /** A reply to the sender, or a delivery to every member of `room` but the sender. */
  datatype Delivery = ToSender(event: Event) | ToRoom(room: string, event: Event)

  /** The clock reading, the next uuid and the random draws a handler may consume. */
  datatype Env = Env(now: int, freshId: string, draws: seq<Draw>)

  datatype Outcome = Outcome(conn: Conn, reg: Registry, outbox: seq<Delivery>)

  // ---------------------------------------------------------------- handshake

  /** The authentication middleware followed by the `connection` handler's
      join of the personal room. A missing or empty token and a token the
      verifier rejects are refused; otherwise the context is the verified
      identity, unbound. */
  function Handshake(token: Option<string>, verify: string -> Option<Identity>): (r: Result<Conn>)
    ensures !Truthy(token) ==> r == Err("Authentication token required")
    ensures Truthy(token) && verify(token.value).None? ==> r == Err("Authentication failed")
    ensures r.Ok? <==> Truthy(token) && verify(token.value).Some?
    ensures r.Ok? ==>
              var who := verify(token.value).value;
              && r.value.ctx == Context(who.userId, who.role, None)
              && r.value.rooms == {who.userId}
  {
    if !Truthy(token) then Err("Authentication token required")
    else match verify(token.value)
      case None => Err("Authentication failed")
      case Some(who) => Ok(Conn(Context(who.userId, who.role, None), {who.userId}))
  }

  // ------------------------------------------------------- authorization table

  /** The role a message demands, if any. */
  function RequiredRole(m: Inbound): Option<Role> {
    match m
    case CreateSessionMsg => Some(Guest)
    case JoinSessionMsg(_) => Some(Controller)
    case ControlEventMsg(_) => Some(Controller)
    case UpdatePermissionsMsg(_) => Some(Guest)
    case _ => None
  }

  /** Whether a message demands a bound session. */
  predicate NeedsSession(m: Inbound) {
    m.WebrtcSignal? || m.ControlEventMsg? || m.AdjustQuality? || m.UpdatePermissionsMsg?
  }

  /** The authorization table: the role check and the membership check. */
  predicate Authorized(ctx: Context, m: Inbound) {
    && (RequiredRole(m).None? || RequiredRole(m).value == ctx.role)
    && (!NeedsSession(m) || Bound(ctx))
  }

  /** The refusal each guarded handler sends back when its checks fail. */
  function Refusal(m: Inbound): (e: Event)
    requires RequiredRole(m).Some? || NeedsSession(m)
    ensures e.IsError()
  {
    match m
    case CreateSessionMsg => AckError("Only guests can create sessions")
    case JoinSessionMsg(_) => AckError("Only controllers can join sessions")
    case WebrtcSignal(_) => ErrorEvent("Not in a session")
    case ControlEventMsg(_) => ErrorEvent("Unauthorized control event")
    case AdjustQuality(_) => ErrorEvent("Not in a session")
    case UpdatePermissionsMsg(_) => ErrorEvent("Only guests can update permissions")
  }

  // --------------------------------------------------------- handler duties

  /** Messages whose handlers may touch the registry. */
  predicate ManagesSessions(m: Inbound) {
    m.CreateSessionMsg? || m.JoinSessionMsg? || m.UpdatePermissionsMsg? || m.DisconnectMsg?
  }

  /** Checks come before effects: a refused message changes nothing and
      only the sender hears of it. */
  predicate RefusedWithoutEffect(conn: Conn, reg: Registry, m: Inbound, o: Outcome) {
    !Authorized(conn.ctx, m) ==> o == Outcome(conn, reg, [ToSender(Refusal(m))]) && Refusal(m).IsError()
  }

  /** Errors go to the sender alone, and nothing else is sent with them. */
  predicate ErrorsPrivate(outbox: seq<Delivery>) {
    && (forall i | 0 <= i < |outbox| :: outbox[i].ToRoom? ==> !outbox[i].event.IsError())
    && (forall i | 0 <= i < |outbox| :: outbox[i].event.IsError() ==> outbox == [outbox[i]])
  }

  /** Relayed signals carry the sender's verified id, whatever `from` it claimed. */
  predicate SignalsStamped(conn: Conn, m: Inbound, outbox: seq<Delivery>) {
    forall i | 0 <= i < |outbox| :: outbox[i].event.RelayedSignal? ==>
      m.WebrtcSignal? && outbox[i].event.signal == m.signal.(from := conn.ctx.userId)
  }

  /** Control events come only from a bound controller and go only to its session room. */
  predicate ControlFromBoundController(conn: Conn, m: Inbound, outbox: seq<Delivery>) {
    forall i | 0 <= i < |outbox| :: outbox[i].event.RelayedControl? ==>
      && m.ControlEventMsg? && conn.ctx.role == Controller && Bound(conn.ctx)
      && outbox[i] == ToRoom(conn.ctx.sessionId.value, RelayedControl(m.event, conn.ctx.userId))
  }

  /** Everything a handler owes, for one message. */
  predicate Guarded(conn: Conn, reg: Registry, m: Inbound, o: Outcome) {
    && RefusedWithoutEffect(conn, reg, m, o)
    && o.conn.ctx.userId == conn.ctx.userId && o.conn.ctx.role == conn.ctx.role
    && (!ManagesSessions(m) ==> o.reg == reg)
    && (Valid(reg) ==> Valid(o.reg))
    && ErrorsPrivate(o.outbox)
    && SignalsStamped(conn, m, o.outbox)
    && ControlFromBoundController(conn, m, o.outbox)
  }

  // ----------------------------------------------------------------- handlers

  function Refuse(conn: Conn, reg: Registry, m: Inbound): Outcome
    requires RequiredRole(m).Some? || NeedsSession(m)
  {
    Outcome(conn, reg, [ToSender(Refusal(m))])
  }

  /** `create-session`. A stream of draws that never yields a free code is
      reported with the handler's catch-all text. */
  function OnCreateSession(conn: Conn, reg: Registry, env: Env): (o: Outcome)
    requires env.freshId != "" && env.freshId !in reg.sessions
    ensures Guarded(conn, reg, CreateSessionMsg, o)
  {
    if conn.ctx.role != Guest then Refuse(conn, reg, CreateSessionMsg)
    else match CreateSession(reg, conn.ctx.userId, env.freshId, env.draws, env.now)
      case None => Outcome(conn, reg, [ToSender(AckError("Failed to create session"))])
      case Some(c) =>
        Outcome(
          Conn(conn.ctx.(sessionId := Some(c.session.id)), conn.rooms + {c.session.id}),
          c.reg,
          [ToSender(AckSessionCode(c.session.code))])
  }

  /** `join-session`: on success the guest's personal room hears
      `controller-joined` before the caller's acknowledgement. */
  function OnJoinSession(conn: Conn, reg: Registry, code: string, now: int): (o: Outcome)
    ensures Guarded(conn, reg, JoinSessionMsg(code), o)
  {
    if conn.ctx.role != Controller then Refuse(conn, reg, JoinSessionMsg(code))
    else
      var j := JoinSession(reg, code, conn.ctx.userId, now);
      match j.result
      case Err(e) => Outcome(conn, j.reg, [ToSender(AckError(e))])
      case Ok(s) =>
        Outcome(
          Conn(conn.ctx.(sessionId := Some(s.id)), conn.rooms + {s.id}),
          j.reg,
          [ToRoom(s.guestId, ControllerJoined(conn.ctx.userId, s.id)), ToSender(AckSession(s))])
  }

  /** `webrtc-signal`: forwarded to the room the signal names, with `from`
      replaced by the sender's verified id. */
  function OnSignal(conn: Conn, reg: Registry, sig: Signal): (o: Outcome)
    ensures Guarded(conn, reg, WebrtcSignal(sig), o)
    ensures Bound(conn.ctx) ==>
              o == Outcome(conn, reg, [ToRoom(sig.to, RelayedSignal(sig.(from := conn.ctx.userId)))])
  {
    if !Bound(conn.ctx) then Refuse(conn, reg, WebrtcSignal(sig))
    else Outcome(conn, reg, [ToRoom(sig.to, RelayedSignal(sig.(from := conn.ctx.userId)))])
  }

  /** `control-event`: only a bound controller may send one, to its session room. */
  function OnControl(conn: Conn, reg: Registry, ev: ControlEvent): (o: Outcome)
    ensures Guarded(conn, reg, ControlEventMsg(ev), o)
    ensures Bound(conn.ctx) && conn.ctx.role == Controller ==>
              o == Outcome(conn, reg, [ToRoom(conn.ctx.sessionId.value, RelayedControl(ev, conn.ctx.userId))])
  {
    if !Bound(conn.ctx) || conn.ctx.role != Controller then Refuse(conn, reg, ControlEventMsg(ev))
    else Outcome(conn, reg, [ToRoom(conn.ctx.sessionId.value, RelayedControl(ev, conn.ctx.userId))])
  }

  /** `adjust-quality`: relayed to the session room as `quality-change`. */
  function OnAdjustQuality(conn: Conn, reg: Registry, q: Quality): (o: Outcome)
    ensures Guarded(conn, reg, AdjustQuality(q), o)
    ensures Bound(conn.ctx) ==>
              o.conn == conn && o.outbox == [ToRoom(conn.ctx.sessionId.value, QualityChange(q))]
  {
    if !Bound(conn.ctx) then Refuse(conn, reg, AdjustQuality(q))
    else Outcome(conn, reg, [ToRoom(conn.ctx.sessionId.value, QualityChange(q))])
  }

  /** `update-permissions`: a bound guest merges the patch into the registry
      and the patch itself (not the merged record) is relayed. */
  function OnUpdatePermissions(conn: Conn, reg: Registry, patch: PermissionPatch): (o: Outcome)
    ensures Guarded(conn, reg, UpdatePermissionsMsg(patch), o)
    ensures Bound(conn.ctx) && conn.ctx.role == Guest ==>
              var sid := conn.ctx.sessionId.value;
              && o.conn == conn
              && o.reg == UpdatePermissions(reg, sid, patch)
              && (sid in reg.sessions ==> o.reg.sessions[sid].permissions == Merge(reg.sessions[sid].permissions, patch))
              && o.outbox == [ToRoom(sid, PermissionsUpdated(patch))]
  {
    if !Bound(conn.ctx) || conn.ctx.role != Guest then Refuse(conn, reg, UpdatePermissionsMsg(patch))
    else
      var sid := conn.ctx.sessionId.value;
      Outcome(conn, UpdatePermissions(reg, sid, patch), [ToRoom(sid, PermissionsUpdated(patch))])
  }

  /** `disconnect`: the socket leaves every room; a bound connection's peers
      hear `peer-disconnected`, and only a departing guest ends the session. */
  function OnDisconnect(conn: Conn, reg: Registry): (o: Outcome)
    ensures Guarded(conn, reg, DisconnectMsg, o)
    ensures !Bound(conn.ctx) ==> o == Outcome(Conn(conn.ctx, {}), reg, [])
  {
    var gone := Conn(conn.ctx, {});
    if !Bound(conn.ctx) then Outcome(gone, reg, [])
    else
      var sid := conn.ctx.sessionId.value;
      var notice := ToRoom(sid, PeerDisconnected(conn.ctx.userId, conn.ctx.role));
      if conn.ctx.role == Guest then
        Outcome(gone, EndSession(reg, sid), [notice, ToRoom(sid, SessionEnded)])
      else
        Outcome(gone, reg, [notice])
  }

  // ----------------------------------------------------------------- dispatch

  /** One inbound message on one connection, dispatched by kind. */
  function Handle(conn: Conn, reg: Registry, m: Inbound, env: Env): (o: Outcome)
    requires m.CreateSessionMsg? ==> env.freshId != "" && env.freshId !in reg.sessions
    ensures RefusedWithoutEffect(conn, reg, m, o)
    ensures o.conn.ctx.userId == conn.ctx.userId && o.conn.ctx.role == conn.ctx.role
    ensures !ManagesSessions(m) ==> o.reg == reg
    ensures Valid(reg) ==> Valid(o.reg)
    ensures ErrorsPrivate(o.outbox)
    ensures SignalsStamped(conn, m, o.outbox)
    ensures ControlFromBoundController(conn, m, o.outbox)
    ensures m.Ping? ==> o == Outcome(conn, reg, [ToSender(Pong)])
  {
    match m
    case CreateSessionMsg => OnCreateSession(conn, reg, env)
    case JoinSessionMsg(code) => OnJoinSession(conn, reg, code, env.now)
    case WebrtcSignal(sig) => OnSignal(conn, reg, sig)
    case ControlEventMsg(ev) => OnControl(conn, reg, ev)
    case AdjustQuality(q) => OnAdjustQuality(conn, reg, q)
    case UpdatePermissionsMsg(patch) => OnUpdatePermissions(conn, reg, patch)
    case DisconnectMsg => OnDisconnect(conn, reg)
    case Ping => Outcome(conn, reg, [ToSender(Pong)])
  }

  // --------------------------------------------------------- handler outcomes

  /** A guest's `create-session` binds the connection to a new waiting
      session, joins its room and acknowledges with its code. */
  lemma CreateBindsNewSession(conn: Conn, reg: Registry, env: Env)
    requires env.freshId != "" && env.freshId !in reg.sessions
    requires conn.ctx.role == Guest
    requires exists j | 0 <= j < |env.draws| :: CodeOf(env.draws[j]) !in reg.byCode
    ensures var o := Handle(conn, reg, CreateSessionMsg, env);
            && o.conn.ctx.sessionId == Some(env.freshId)
            && o.conn.rooms == conn.rooms + {env.freshId}
            && o.reg == CreateSession(reg, conn.ctx.userId, env.freshId, env.draws, env.now).value.reg
            && env.freshId in o.reg.sessions
            && o.reg.sessions[env.freshId].status == Waiting
            && o.reg.sessions[env.freshId].guestId == conn.ctx.userId
            && o.outbox == [ToSender(AckSessionCode(o.reg.sessions[env.freshId].code))]
            && GetSessionByCode(o.reg, o.reg.sessions[env.freshId].code) == Some(o.reg.sessions[env.freshId])
  {
  }

  /** A controller's successful `join-session` binds the connection, tells
      the guest's room `controller-joined {controllerId, sessionId}` and
      acknowledges with the joined session; a failed one only sends the
      registry's error text back. */
  lemma JoinOutcome(conn: Conn, reg: Registry, code: string, env: Env)
    requires conn.ctx.role == Controller
    ensures var o := Handle(conn, reg, JoinSessionMsg(code), env);
            var j := JoinSession(reg, code, conn.ctx.userId, env.now);
            && o.reg == j.reg
            && (j.result.Err? ==> o.conn == conn && o.outbox == [ToSender(AckError(j.result.error))])
            && (j.result.Ok? ==>
                  && o.conn.ctx.sessionId == Some(j.result.value.id)
                  && o.conn.rooms == conn.rooms + {j.result.value.id}
                  && o.outbox == [ToRoom(j.result.value.guestId, ControllerJoined(conn.ctx.userId, j.result.value.id)),
                                  ToSender(AckSession(j.result.value))])
  {
  }

  /** On disconnect of a bound connection the peers hear `peer-disconnected`
      first; a guest's departure also ends the session and announces it. */
  lemma DisconnectOutcome(conn: Conn, reg: Registry, env: Env)
    requires Bound(conn.ctx)
    ensures var o := Handle(conn, reg, DisconnectMsg, env);
            var sid := conn.ctx.sessionId.value;
            && |o.outbox| >= 1
            && o.outbox[0] == ToRoom(sid, PeerDisconnected(conn.ctx.userId, conn.ctx.role))
            && (conn.ctx.role == Guest ==>
                  && o.reg == EndSession(reg, sid)
                  && GetSession(o.reg, sid).None?
                  && o.outbox == [o.outbox[0], ToRoom(sid, SessionEnded)])
            && (conn.ctx.role == Controller ==> o.reg == reg && |o.outbox| == 1)
  {
  }

  // --------------------------------------------------- observed behaviours

  /** A controller's departure leaves its session `connected` with the
      departed controller recorded, so no other controller can join it. */
  lemma ControllerDisconnectStrandsSession(conn: Conn, reg: Registry, env: Env, other: string, later: int)
    requires Valid(reg) && Bound(conn.ctx) && conn.ctx.role == Controller
    requires conn.ctx.sessionId.value in reg.sessions
    requires reg.sessions[conn.ctx.sessionId.value].status == Connected
    ensures var o := Handle(conn, reg, DisconnectMsg, env);
            var s := reg.sessions[conn.ctx.sessionId.value];
            && o.reg.sessions[s.id].status == Connected
            && o.reg.sessions[s.id].controllerId == s.controllerId
            && JoinSession(o.reg, s.code, other, later).result == Err("Session already has a controller")
  {
    var s := reg.sessions[conn.ctx.sessionId.value];
    LookupsAgree(reg, s.code, s);
  }

  /** `webrtc-signal` checks only that the sender is bound to some session:
      it reaches whatever room the signal names, including one the sender
      is not a member of and that belongs to another session. */
  lemma SignalReachesAnyRoom(conn: Conn, reg: Registry, sig: Signal, env: Env)
    requires Bound(conn.ctx)
    ensures Handle(conn, reg, WebrtcSignal(sig), env).outbox
              == [ToRoom(sig.to, RelayedSignal(sig.(from := conn.ctx.userId)))]
  {
  }

  /** A second `create-session` on a bound guest connection rebinds it to the
      new session while the first one stays registered, no longer reachable
      from this connection's context. */
  lemma SecondCreateOrphansFirst(conn: Conn, reg: Registry, env: Env)
    requires Valid(reg) && conn.ctx.role == Guest && Bound(conn.ctx)
    requires conn.ctx.sessionId.value in reg.sessions
    requires env.freshId != "" && env.freshId !in reg.sessions
    requires exists j | 0 <= j < |env.draws| :: CodeOf(env.draws[j]) !in reg.byCode
    ensures var o := Handle(conn, reg, CreateSessionMsg, env);
            var first := conn.ctx.sessionId.value;
            && o.conn.ctx.sessionId == Some(env.freshId) && env.freshId != first
            && first in o.reg.sessions && o.reg.sessions[first] == reg.sessions[first]
  {
  }
}
